=== FILE: README.md ===
# AI bookmark organizer: a Dafny model of the extension's core

This project models the core of a browser extension that files bookmarks into category folders. Each file below is a Dafny module.

**Tracking new bookmarks.**
- When a bookmark is created, the background script waits one second before processing it (debouncing).
- It remembers whether the user edited the bookmark during that wait.
- It ignores the move events that its own moves cause (`tracker.dfy`).

**Processing a bookmark.**
- A page's built-in language model classifies the bookmark, through a content script injected into a cached classification tab (`gateway.dfy`, `content.dfy`).
- The bookmark is then moved into a folder named after the category. That folder sits under "Bookmarks Bar" or "Other Bookmarks" and is created if missing (`placement.dfy`).
- `pipeline.dfy` composes these steps.

**The bulk organiser.** It collects every bookmark of the tree, cuts the list into batches of 25, classifies each batch in one request and places every bookmark of every batch whose answer is usable. A batch that throws, such as one whose answer has no categories, is logged and skipped, and the run goes on with the next batch (`organizer.dfy`).

**Other modules.**
- The keyword classifier and its category table: `categorization.dfy` and `categories.dfy`.
- Helpers: ASCII lowercasing, substring search and ECMAScript `trim` (`text.dfy`).
- The bookmark store the extension reads and changes (`bookmarks.dfy`).

**How browser calls are modelled.**
- Every browser call becomes an input: a boolean saying whether it throws, or the value it returns. These inputs are a tab probe, the open tabs, whether injection throws, whether `tabs.sendMessage` rejects in the single-bookmark path, a batch reply (`None` when the batch message rejects) and a per-placement `Faults` record.
- The page's model is an oracle `nat -> PromptReply` giving the answer to each successive prompt.
- The bookmark store is flat. Each node has an entry with its title, optional URL and parent. One `order` sequence fixes sibling order.
- JavaScript `undefined` is `None`.
- Timer handles are a multiset of armed callbacks.

The timer callback's two steps are explicit, and their order is a parameter:
- `Ordering.AsWritten` deletes the pending record before `processBookmark` reads it.
- `Ordering.ReadBeforeDelete` has `processBookmark` read the record first.

## Model

| member | source | states |
|---|---|---|
| Tracker.OnCreated | entrypoints/background.ts:18-30 | a node without a URL leaves the tracker unchanged; otherwise the id gets one fresh record with `userInteracted = false`, replacing any earlier one, with exactly one live timer; other records and timers are unchanged; the timer invariant is kept |
| Tracker.MarkUserInteraction | entrypoints/background.ts:76-81 | sets the flag only on an existing record and never creates one; all other records, timers and the suppression set are unchanged |
| Tracker.OnChanged | entrypoints/background.ts:33-39 | a change marks an existing record whatever the suppression set holds; it creates no record and changes no other |
| Tracker.OnMoved | entrypoints/background.ts:42-54 | a move of an id in `bookmarksBeingMoved` changes nothing; any other move marks an existing record only |
| Tracker.TimerFires | entrypoints/background.ts:63-67 | one live timer of the id is consumed; as written the record is deleted at once, with the read-first order it is kept for `processBookmark`; other records are untouched |
| Tracker.Decide | entrypoints/background.ts:84-99 | the bookmark is categorised iff it was fetched, has a URL and its record (if any) is not marked; it is skipped as edited iff fetched with a URL and marked; a missing record counts as unmarked |
| Tracker.AfterRead | entrypoints/background.ts:66-67 | with the read-first order, the id's record is gone after the read; other records, timers and the set are unchanged |
| Tracker.RunKeepsInv | entrypoints/background.ts:57-73 | in the as-written order every event sequence keeps "a live timer for an id means exactly one, and a record for it" |
| Tracker.NoRecordWithoutCreation | entrypoints/background.ts:33-54 | no event other than a creation with a URL ever makes a record appear |
| Tracker.InteractionNeverSeenAsWritten | entrypoints/background.ts:63-67 | as written, once the timer fired, no later events short of a new creation of the id with a URL can make `processBookmark` see a user edit |
| Tracker.FlagSticksReadBeforeDelete | entrypoints/background.ts:76-81 | with the read-first order, a set flag survives every event sequence not touching the id |
| Tracker.EditCancelsReadBeforeDelete | entrypoints/background.ts:93-99 | with the read-first order, a change event anywhere between arming and reading makes the run skip the bookmark |
| Tracker.NoLossOfRecord | entrypoints/background.ts:57-73 | with the read-first order, a record survives any events not touching its id |
| Tracker.MoveWindow | entrypoints/background.ts:47-53 | while one id is being moved, its own move event changes nothing, but a move of any other id is still recorded as a user interaction |
| Tracker.ChangeNotSuppressed | entrypoints/background.ts:33-39 | a change event for an id under move is still recorded as a user edit |
| Tracker.RenameDuringDelayIsIgnored | entrypoints/background.ts:64-67 | as written, create–rename–fire still categorises the renamed bookmark |
| Tracker.RenameDuringDelaySkips | entrypoints/background.ts:93-99 | with the read-first order, create–rename–fire skips it |
| Placement.FindRoot | entrypoints/background.ts:172-181 | `None` iff no top-level node is titled "Bookmarks Bar" or "Other Bookmarks"; otherwise the first such one in child order |
| Placement.FindFolder | entrypoints/background.ts:129-136 | `None` iff no child of the root is a URL-less node titled exactly `name`; otherwise the first such child, which is under the root |
| Placement.MoveInto | entrypoints/background.ts:148-167 | adding the id to the set, moving and verifying leave the id out of the set on every path; the move happens iff the move call does not throw and the store accepts it; when it happens the bookmark's parent is the folder |
| Placement.CreateAndMove | entrypoints/background.ts:139-146 | a thrown create changes nothing; otherwise exactly one new id appears in the store, a URL-less folder titled with the category and a child of the root |
| Placement.Place | entrypoints/background.ts:117-169 | no root means nothing is created or moved and the set is unchanged; on every other path the id leaves the set, only new nodes and the bookmark's entry change, the store gains exactly the created folder's id (or nothing), and a created folder is one that did not exist under the root; success puts the bookmark in a URL-less folder under the root titled with the category |
| Placement.FindOrCreate | entrypoints/background.ts:126-146 | an existing matching folder is reused and nothing is created; with none, a folder is created under the root unless `create` throws |
| Placement.SameCategoryTwiceCreatesAtMostOne | entrypoints/background.ts:126-146 | two consecutive placements with the same category create at most one folder: at most one id is added to the store across both |
| Placement.UndefinedCategoryAlwaysCreates | entrypoints/background.ts:132-143 | an undefined category matches no folder, so every such placement creates another untitled folder |
| Placement.PlacedWhenNothingFails | entrypoints/background.ts:117-164 | with no failing call, a non-top-level bookmark ends in a folder under the root titled with its category |
| Bookmarks.CreateFolder | entrypoints/background.ts:140-144 | the new folder has a fresh id and is the last child of its parent; other entries and the top level are unchanged |
| Bookmarks.MoveNode | entrypoints/background.ts:152 | the move is rejected iff the node or target is unknown, the node is a fixed top-level folder or the target is the node itself; otherwise only the node's parent changes and the top level is kept |
| Organizer.Leaves | entrypoints/background.ts:272-283 | only bookmarks with a non-empty URL are collected |
| Organizer.LeavesInPreorder | entrypoints/background.ts:272-283 | the traversal yields exactly the leaves of a depth-first, left-to-right walk; folders are never yielded |
| Organizer.ChunksShape | entrypoints/background.ts:214-220 | the batches concatenate to the input; each holds 1 to 25 items; all but the last hold exactly 25; there are ceil(n/25) |
| Organizer.MakeBatches | entrypoints/background.ts:214-220 | the `i += 25` slicing loop produces exactly those batches |
| Organizer.PlaceItems | entrypoints/background.ts:226-233 | one `placeBookmarkInFolder` call is made per item of the batch, in order, each under the category at the item's own index (undefined past the end); the store and suppression set afterwards are exactly those these placements leave, made one after the other |
| Organizer.ProcessBatch | entrypoints/background.ts:222-238 | the batch is skipped, with the store unchanged, exactly when the classifier's categories are undefined; otherwise item i is placed under `categories[i]`, and the store and set afterwards are those these placements leave; with the length check, or with no answer, every item gets a defined category, and with no answer it is "Others" |
| Organizer.RunBatches | entrypoints/background.ts:222-239 | batches run in order, and each one gets a `placeBookmarkInFolder` call either for every item, in order, or for none; as written, when no successful answer lacks `categories`, every batch still runs and every bookmark gets one call, in order; with the length check every bookmark is placed under a defined category; when no batch request is answered, every bookmark is placed under "Others" |
| Organizer.OrganizeAll | entrypoints/background.ts:202-261 | a failing `getTree` sends only `organizationError` and changes nothing; otherwise `organizationComplete` with a duration is sent, `totalBookmarks` is the number of leaves and at most that many are processed; as written, when no successful answer lacks `categories`, every leaf gets one call, in order |
| Organizer.OnMessageAsWritten | entrypoints/background.ts:184-199 | as written, every organise request ends with a second message, `organizationComplete` without a duration |
| Organizer.ErrorThenComplete | entrypoints/background.ts:184-199 | as written, a failed `getTree` sends `organizationError` and then `organizationComplete` without a duration |
| Organizer.MissingCategoriesSkipBatch | entrypoints/background.ts:222-238 | as written, a successful batch answer without `categories` places none of the batch; with the length check the whole batch goes under defined categories |
| Organizer.OnMessage | entrypoints/background.ts:184-199 | the corrected listener sends exactly one verdict, an error iff `getTree` failed; on success every collected bookmark is placed under a defined category |
| Organizer.ShortAnswerMisplaces | entrypoints/background.ts:226-231 | as written, a one-category answer for a two-bookmark batch places the second bookmark under `undefined`; with the length check both go to "Others" |
| Gateway.FirstUsable | entrypoints/background.ts:442-457 | the first tab with an id and a URL starting with `http` |
| Gateway.SetUp | entrypoints/background.ts:416-473 | a live cached tab that has the script is reused with no query and no injection; a gone or unloaded tab resets the cache; the query happens iff there is no live cached tab; the script is injected only while the flag is false; success leaves the cache holding the tab with the flag set |
| Gateway.InjectOncePerTab | entrypoints/background.ts:465-472 | after a successful set-up, the next set-up with the tab still alive queries nothing and injects nothing |
| Gateway.CategorizeOne | entrypoints/background.ts:285-367 | the model's category is used iff the set-up succeeded and the content script answered with success; every other path gives "Others" |
| Gateway.CategorizeBatch | entrypoints/background.ts:370-413 | the reply's categories are returned unchecked iff set-up succeeded and the reply says success; every other path gives the fallback vector |
| Gateway.ShortAnswerPassesUnchecked | entrypoints/background.ts:401-403 | as written, a successful answer with fewer categories than titles is returned misaligned |
| Gateway.CategorizeBatchChecked | entrypoints/background.ts:370-413 | the corrected batch call is always aligned with its batch; it departs from the fallback only for a successful, aligned reply |
| Gateway.CheckedAgreesWhenAligned | entrypoints/background.ts:401-403 | the checked call equals the unchecked call exactly when the unchecked call's result is aligned |
| ContentScript.RetryFrom | entrypoints/content.ts:55-77 | prompts stop at the first answer or after the fifth; all earlier prompts were rejected; exhaustion means the fifth was rejected too |
| ContentScript.CategorizeAI | entrypoints/content.ts:24-85 | missing `ai` or `languageModel` fails before any session; availability `'no'` fails without a session or prompt; at most five prompts; success returns the trimmed text of the first answer after rejections only |
| ContentScript.FirstAnswerWins | entrypoints/content.ts:55-65 | if prompt k is the first one answered, the result is its trimmed text after k+1 prompts |
| ContentScript.ExhaustedIffAllRejected | entrypoints/content.ts:66-72 | the retries are exhausted iff all five prompts are rejected |
| ContentScript.CategoryIsTrimmed | entrypoints/content.ts:65 | a successful category has no leading or trailing whitespace |
| ContentScript.Handle | entrypoints/content.ts:7-21 | only `categorizeBookmarkAI` is answered; success maps to `{success: true, category}` and failure to `{success: false, error}` with the thrown message |
| ContentScript.BatchRequestUnanswered | entrypoints/content.ts:8 | a `categorizeBookmarkBatchAI` request gets no answer |
| Categories.TableOrder | entrypoints/categories.ts:6-31 | exactly six entries: News, Technology, Sports, Education, Entertainment, Others |
| Categories.NamesDistinct | entrypoints/categories.ts:6-31 | the names are pairwise distinct |
| Categories.OthersLastWithoutKeywords | entrypoints/categories.ts:27-30 | "Others" is the last entry, has no keywords and is the only entry with that name |
| Categories.KeywordsLower | entrypoints/categories.ts:9-26 | every keyword is non-empty and lowercase |
| Categorization.ScanFrom | entrypoints/categorization.ts:11-17 | the index of the first entry, in table order, with a keyword in the text |
| Categorization.Categorize | entrypoints/categorization.ts:8-21 | the result is always one of the table's names |
| Categorization.FirstMatchWins | entrypoints/categorization.ts:9-17 | the first entry in table order with a keyword in `lowercase(title + " " + url)` gives the result |
| Categorization.OthersIffNoMatch | entrypoints/categorization.ts:19-20 | the result is "Others" iff no keyword of any entry occurs |
| Categorization.CaseInsensitive | entrypoints/categorization.ts:9 | inputs differing only in ASCII letter case classify the same |
| Categorization.NewsFirst | entrypoints/categorization.ts:11-16 | text containing "news" is "News", even when it also contains "tech" |
| Categorization.TechnologySecond | entrypoints/categorization.ts:11-16 | text containing "tech" and no News keyword is "Technology" |
| Text.Contains | entrypoints/categorization.ts:13 | `includes` holds iff the word occurs at some index |
| Text.TrimShape | entrypoints/content.ts:65 | trimming removes only whitespace, from both ends only, and leaves none at either end |
| Text.TrimIdempotent | entrypoints/content.ts:65 | trimming twice is trimming once |
| Pipeline.ProcessBookmark | entrypoints/background.ts:84-114 | the bookmark is classified and placed iff it was fetched, has a URL and is not marked as edited; a skipped bookmark changes nothing; the category is the model's answer when the tab works, `sendMessage` delivers and the model answers, otherwise "Others"; a successful move puts it in the folder with that title |
| Pipeline.OnTimer | entrypoints/background.ts:63-67 | in either order no record of the id remains afterwards, other records are untouched and the timer invariant is kept |
| Pipeline.EditedBookmark | entrypoints/background.ts:64-99 | a bookmark edited during the delay is classified anyway as written, and left alone with the read-first order |
| Pipeline.AnsweredBookmarkIsFiled | entrypoints/background.ts:84-114 | an untouched new bookmark whose message is delivered and whose model answers ends in a folder under the root titled with the trimmed answer |
| Pipeline.RejectedBookmarkGoesToOthers | entrypoints/background.ts:84-114 | when all five prompts are rejected, the bookmark ends in "Others" |
| Pipeline.LostMessageGoesToOthers | entrypoints/background.ts:343-361 | when `tabs.sendMessage` rejects, the catch falls back and the bookmark ends in "Others" whatever the page would answer |

## Left out

- Timers: `setTimeout`, `clearTimeout` and the 500 ms pause between prompts. A timer is an element of the `armed` multiset and firing is an event.
- Clocks: `Date.now()` and the floating-point `durationSeconds`. `Complete(true)` only records that a duration is attached.
- `console` logging, the popup UI, the build configuration and the built `dist/background.js`.
- The `defineUnlistedScript` stub default exports in categories.ts and categorization.ts.
- Scheduling: general async interleaving is not modelled. Only the order of the two steps inside the timer callback is a parameter. Other events are applied one at a time.
- The language-model session: its creation options and the prompt wording. The session is a reply oracle and a host record.
- `toLowerCase` and `trim`: Unicode case folding is replaced by ASCII lowercasing. `trim` uses the ECMAScript whitespace set.
- Bookmark ids are naturals, not strings.
- A failing `tabs.query` is not modelled. The tabs are an input and the model treats the call as succeeding.
- Store rules: rules the browser enforces on `move` beyond the ones listed for `Bookmarks.MoveNode` are not modelled, such as moving a folder into its own subtree.
- Tree snapshot: the `getTree` snapshot the bulk organiser reads is an input, independent of the modelled store.
- Bookmarks.CreateFolder: a folder created with an `undefined` title is given the empty title. This is the browser's behaviour as assumed here.
- Tracker.RunKeepsInv: covers only the as-written order. With the read-first order, a suspended read can delete a record that a later creation re-armed.
- Gateway.CategorizeBatch: the outer `catch` of `categorizeBookmarksBatch` is not modelled, because the inner function catches everything and it can never run.
- Gateway.CategorizeOne: models the set-up inlined in `categorizeBookmark` by the same `SetUp` as `setupCategorizationTabAndContentScript`. The two copies differ only in logging.
- Organizer.RunBatches: the call sequence is stated for the whole run, but the store is tied to the placements only batch by batch, through `Organizer.ProcessBatch`. There is no single fold of the store over the whole run's calls.
- Prompts: the model abstracts the title and URL sent to the page, and the titles of a batch message (an empty title is sent as "Untitled"). The prompt oracle and the batch reply already fix every answer.

## Findings

| source | as written | input that shows it | evidently intended | confidence | as-written member | corrected member |
|---|---|---|---|---|---|---|
| entrypoints/background.ts:64-67 | the timer callback starts the async `processBookmark` and deletes the pending record in the same tick; `processBookmark` reads the record only after awaiting `bookmarks.get`, finds none and treats the bookmark as untouched | create a bookmark with a URL, rename it within the second, let the timer fire | an edit during the delay cancels automatic filing | high; not executed | Tracker.RenameDuringDelayIsIgnored | Tracker.RenameDuringDelaySkips |
| entrypoints/background.ts:401-403 | a successful batch reply's `categories` is returned without comparing its length to the batch. Past its end `categories[i]` is `undefined`, and the bookmark is filed into a new untitled folder. If it is missing entirely, the batch throws and is skipped silently | a batch of two bookmarks answered `{success: true, categories: ["News"]}` | one category per bookmark, falling back to "Others" | medium (the content script never answers a batch today); not executed | Organizer.ShortAnswerMisplaces | Gateway.CategorizeBatchChecked |
| entrypoints/background.ts:184-199 | `organizeAllBookmarks` catches its own errors and sends its own message, so the listener's `try` always succeeds. It then sends a second `organizationComplete` | `getTree` throws: the popup receives `organizationError`, then `organizationComplete` | exactly one verdict per run | high; not executed | Organizer.OnMessageAsWritten | Organizer.OnMessage |

=== FILE: bookmarks.dfy ===
/**
 * The browser's bookmark store, as the extension sees it through `bookmarks.get`,
 * `getChildren`, `getTree`, `create` and `move`.
 *
 * The store is flat: every node has an entry (title, optional URL, parent) and one
 * sequence `order` fixes the left-to-right order of siblings, so the children of a
 * folder are the nodes of `order` whose parent is that folder. A node whose parent is
 * `None` sits directly under the tree's invisible root ("Bookmarks Bar",
 * "Other Bookmarks", ...). Identifiers are opaque strings in the browser; here they
 * are naturals so that `create` can hand out a fresh one.
 */
module Bookmarks {
  import opened Options

  type Id = nat

  /** A bookmark when `url` is present, a folder otherwise. */
  datatype Entry = Entry(title: string, url: Option<string>, parent: Option<Id>)

  datatype Store = Store(order: seq<Id>, entries: map<Id, Entry>, nextId: Id)

  /** Every listed node exists and every existing id is below the next fresh id. */
  ghost predicate Valid(s: Store) {
    && (forall i :: 0 <= i < |s.order| ==> s.order[i] in s.entries)
    && (forall id :: id in s.entries ==> id < s.nextId)
  }

  /** JavaScript truthiness of an optional URL: present and non-empty. */
  predicate HasUrl(url: Option<string>) {
    url.Some? && url.value != ""
  }

  /** The nodes of `order` whose parent is `parent`, in order. */
  function ChildrenOf(order: seq<Id>, entries: map<Id, Entry>, parent: Option<Id>): (r: seq<Id>)
    ensures |r| <= |order|
    ensures forall x :: x in r <==> x in order && x in entries && entries[x].parent == parent
  {
    if |order| == 0 then []
    else
      var head := if order[0] in entries && entries[order[0]].parent == parent then [order[0]] else [];
      head + ChildrenOf(order[1..], entries, parent)
  }

  lemma {:induction false} ChildrenOfAppend(a: seq<Id>, b: seq<Id>, entries: map<Id, Entry>, parent: Option<Id>)
    ensures ChildrenOf(a + b, entries, parent) == ChildrenOf(a, entries, parent) + ChildrenOf(b, entries, parent)
  {
    if |a| > 0 {
      assert (a + b)[1..] == a[1..] + b;
      ChildrenOfAppend(a[1..], b, entries, parent);
    } else {
      assert a + b == b;
    }
  }

  /** Two entry maps that agree on which listed nodes are children of `parent` list the same children. */
  lemma {:induction false} ChildrenOfFrame(order: seq<Id>, e1: map<Id, Entry>, e2: map<Id, Entry>, parent: Option<Id>)
    requires forall i :: 0 <= i < |order| ==>
      (order[i] in e1 && e1[order[i]].parent == parent) == (order[i] in e2 && e2[order[i]].parent == parent)
    ensures ChildrenOf(order, e1, parent) == ChildrenOf(order, e2, parent)
  {
    if |order| > 0 {
      ChildrenOfFrame(order[1..], e1, e2, parent);
    }
  }

  /** `order` without any occurrence of `x`. */
  function Remove(order: seq<Id>, x: Id): (r: seq<Id>)
    ensures forall y :: y in r <==> y in order && y != x
  {
    if |order| == 0 then []
    else (if order[0] == x then [] else [order[0]]) + Remove(order[1..], x)
  }

  /** Dropping a node that is not a child of `parent` leaves the children of `parent` as they were. */
  lemma {:induction false} ChildrenOfRemove(order: seq<Id>, entries: map<Id, Entry>, parent: Option<Id>, x: Id)
    requires !(x in entries && entries[x].parent == parent)
    ensures ChildrenOf(Remove(order, x), entries, parent) == ChildrenOf(order, entries, parent)
  {
    if |order| > 0 {
      ChildrenOfRemove(order[1..], entries, parent, x);
      var head := if order[0] == x then [] else [order[0]];
      assert Remove(order, x) == head + Remove(order[1..], x);
      ChildrenOfAppend(head, Remove(order[1..], x), entries, parent);
    }
  }

  /** `bookmarks.getChildren(p)`. */
  function Children(s: Store, p: Id): seq<Id> {
    ChildrenOf(s.order, s.entries, Some(p))
  }

  /** The children of the tree's root, as `getTree()[0].children` lists them. */
  function TopLevel(s: Store): seq<Id> {
    ChildrenOf(s.order, s.entries, None)
  }

  /** The store with a new folder `s.nextId`, last among the children of `parent`. */
  function AddFolder(s: Store, parent: Id, title: string): Store {
    Store(s.order + [s.nextId], s.entries[s.nextId := Entry(title, None, Some(parent))], s.nextId + 1)
  }

  lemma AddFolderValid(s: Store, parent: Id, title: string)
    requires Valid(s)
    ensures Valid(AddFolder(s, parent, title))
  {
    var t := AddFolder(s, parent, title);
    forall i | 0 <= i < |t.order|
      ensures t.order[i] in t.entries
    {
      if i < |s.order| {
        assert t.order[i] == s.order[i];
      }
    }
  }

  lemma AddFolderChildren(s: Store, parent: Id, title: string, p: Option<Id>)
    requires Valid(s)
    ensures ChildrenOf(AddFolder(s, parent, title).order, AddFolder(s, parent, title).entries, p)
      == ChildrenOf(s.order, s.entries, p) + (if p == Some(parent) then [s.nextId] else [])
  {
    var t := AddFolder(s, parent, title);
    ChildrenOfFrame(s.order, s.entries, t.entries, p);
    ChildrenOfAppend(s.order, [s.nextId], t.entries, p);
    assert ChildrenOf([s.nextId], t.entries, p) == (if p == Some(parent) then [s.nextId] else []) by {
      assert [s.nextId][1..] == [];
    }
  }

  /**
   * `bookmarks.create({parentId, title})` without a URL: a new, empty folder placed last
   * among the children of `parent`, under an id the store has never used.
   */
  function CreateFolder(s: Store, parent: Id, title: string): (r: (Store, Id))
    requires Valid(s)
    ensures Valid(r.0)
    ensures r.1 !in s.entries && r.0.entries.Keys == s.entries.Keys + {r.1}
    ensures r.0.entries[r.1] == Entry(title, None, Some(parent))
    ensures forall x :: x in s.entries ==> x in r.0.entries && r.0.entries[x] == s.entries[x]
    ensures forall x :: x in s.order ==> x in r.0.order
    ensures Children(r.0, parent) == Children(s, parent) + [r.1]
    ensures TopLevel(r.0) == TopLevel(s)
  {
    AddFolderValid(s, parent, title);
    AddFolderChildren(s, parent, title, Some(parent));
    AddFolderChildren(s, parent, title, None);
    (AddFolder(s, parent, title), s.nextId)
  }

  /** The store after `id` has become the last child of `target`. */
  function Relocate(s: Store, id: Id, target: Id): Store
    requires id in s.entries
  {
    Store(Remove(s.order, id) + [id], s.entries[id := s.entries[id].(parent := Some(target))], s.nextId)
  }

  lemma RelocateValid(s: Store, id: Id, target: Id)
    requires Valid(s) && id in s.entries
    ensures Valid(Relocate(s, id, target))
    ensures forall x :: x in s.order ==> x in Relocate(s, id, target).order
  {
    var order := Relocate(s, id, target).order;
    forall i | 0 <= i < |order|
      ensures order[i] in s.entries
    {
      if i < |order| - 1 {
        assert order[i] in Remove(s.order, id);
      }
    }
    forall x | x in s.order
      ensures x in order
    {
      if x != id {
        assert x in Remove(s.order, id);
      }
    }
  }

  /** Relocating a node that is not directly under the tree's root leaves the top level alone. */
  lemma RelocateKeepsTopLevel(s: Store, id: Id, target: Id)
    requires id in s.entries && s.entries[id].parent.Some?
    ensures TopLevel(Relocate(s, id, target)) == TopLevel(s)
  {
    var e := Relocate(s, id, target).entries;
    ChildrenOfRemove(s.order, s.entries, None, id);
    ChildrenOfFrame(Remove(s.order, id), s.entries, e, None);
    ChildrenOfAppend(Remove(s.order, id), [id], e, None);
  }

  /**
   * `bookmarks.move(id, {parentId: target})`: the node becomes the last child of
   * `target`. The store rejects (the call throws) an unknown node or target, a node
   * directly under the tree's root (those are the browser's fixed folders), and a move
   * of a node into itself.
   */
  function MoveNode(s: Store, id: Id, target: Id): (r: Option<Store>)
    requires Valid(s)
    ensures r.None? <==> id !in s.entries || target !in s.entries || s.entries[id].parent.None? || id == target
    ensures r.Some? ==> Valid(r.value)
    ensures r.Some? ==> r.value.entries.Keys == s.entries.Keys && r.value.nextId == s.nextId
    ensures r.Some? ==> r.value.entries[id] == s.entries[id].(parent := Some(target))
    ensures r.Some? ==> forall x :: x in s.entries && x != id ==> r.value.entries[x] == s.entries[x]
    ensures r.Some? ==> TopLevel(r.value) == TopLevel(s)
    ensures r.Some? ==> forall x :: x in s.order ==> x in r.value.order
  {
    if id !in s.entries || target !in s.entries || s.entries[id].parent.None? || id == target then None
    else
      RelocateValid(s, id, target);
      RelocateKeepsTopLevel(s, id, target);
      Some(Relocate(s, id, target))
  }
}

=== FILE: categories.dfy ===
/** The fixed category table the keyword classifier scans, in priority order. */
module Categories {
  import opened Text

  datatype Category = Category(name: string, keywords: seq<string>)

  /** The name returned when no keyword matches. */
  const OthersName: string := "Others"

  const Table: seq<Category> := [
    Category("News", ["news", "media", "broadcast", "press"]),
    Category("Technology", ["tech", "software", "computer", "programming", "coding"]),
    Category("Sports", ["sports", "football", "soccer", "basketball", "tennis"]),
    Category("Education", ["education", "learning", "school", "university", "course"]),
    Category("Entertainment", ["entertainment", "movies", "music", "games", "videos"]),
    Category(OthersName, [])
  ]

  /** The category names, in table order. */
  function Names(): (r: seq<string>)
    ensures |r| == |Table|
    ensures forall i :: 0 <= i < |Table| ==> r[i] == Table[i].name
  {
    seq(|Table|, i requires 0 <= i < |Table| => Table[i].name)
  }

  lemma TableOrder()
    ensures Names() == ["News", "Technology", "Sports", "Education", "Entertainment", "Others"]
  {
  }

  /** No two entries share a name, so a name identifies its entry. */
  lemma NamesDistinct()
    ensures forall i, j :: 0 <= i < j < |Table| ==> Table[i].name != Table[j].name
  {
    TableOrder();
  }

  /** `Others` is the last entry and has no keyword, so a keyword can never select it. */
  lemma OthersLastWithoutKeywords()
    ensures Table[|Table| - 1] == Category(OthersName, [])
    ensures forall i :: 0 <= i < |Table| && Table[i].name == OthersName ==> i == |Table| - 1
  {
    NamesDistinct();
  }

  /** Every keyword is lower-case, so it can occur in lower-cased text. */
  lemma KeywordsLower()
    ensures forall i, k :: 0 <= i < |Table| && 0 <= k < |Table[i].keywords| ==> IsLower(Table[i].keywords[k])
    ensures forall i, k :: 0 <= i < |Table| && 0 <= k < |Table[i].keywords| ==> |Table[i].keywords[k]| > 0
  {
  }
}

=== FILE: categorization.dfy ===
/**
 * The keyword classifier `categorizeBookmark`: lower-case the title and URL joined by a
 * space, and return the first category, in table order, one of whose keywords occurs in
 * that text; `Others` when none does.
 */
module Categorization {
  import opened Text
  import opened Categories

  /** The text the classifier searches: `${title} ${url}`, lower-cased. */
  function SearchText(title: string, url: string): string {
    Lower(title + " " + url)
  }

  /** Some keyword of `c` occurs in `text`. */
  predicate Matches(text: string, c: Category) {
    exists k :: 0 <= k < |c.keywords| && Contains(text, c.keywords[k])
  }

  /** The inner keyword loop: does any keyword of `keywords` occur in `text`? */
  function AnyKeyword(text: string, keywords: seq<string>): (r: bool)
    ensures r <==> exists k :: 0 <= k < |keywords| && Contains(text, keywords[k])
  {
    if |keywords| == 0 then false
    else if Contains(text, keywords[0]) then true
    else
      var r := AnyKeyword(text, keywords[1..]);
      assert forall k :: 1 <= k < |keywords| ==> keywords[k] == keywords[1..][k - 1];
      r
  }

  /** The outer loop from entry `from` on: the index of the first matching entry, or `|Table|`. */
  function ScanFrom(text: string, from: nat): (r: nat)
    requires from <= |Table|
    ensures from <= r <= |Table|
    ensures r < |Table| ==> Matches(text, Table[r])
    ensures forall j :: from <= j < r ==> !Matches(text, Table[j])
    decreases |Table| - from
  {
    if from == |Table| then from
    else if AnyKeyword(text, Table[from].keywords) then from
    else ScanFrom(text, from + 1)
  }

  /** `categorizeBookmark(title, url)`: always one of the table's names. */
  function Categorize(title: string, url: string): (r: string)
    ensures r in Names()
  {
    var k := ScanFrom(SearchText(title, url), 0);
    if k < |Table| then Table[k].name else OthersName
  }

  /** The first matching entry, in table order, decides the category. */
  lemma FirstMatchWins(title: string, url: string, k: nat)
    requires k < |Table| && Matches(SearchText(title, url), Table[k])
    requires forall j :: 0 <= j < k ==> !Matches(SearchText(title, url), Table[j])
    ensures Categorize(title, url) == Table[k].name
  {
    var r := ScanFrom(SearchText(title, url), 0);
    assert r == k;
  }

  /** The classifier answers `Others` exactly when no keyword of any entry occurs in the text. */
  lemma OthersIffNoMatch(title: string, url: string)
    ensures Categorize(title, url) == OthersName
        <==> forall j :: 0 <= j < |Table| ==> !Matches(SearchText(title, url), Table[j])
  {
    var text := SearchText(title, url);
    var r := ScanFrom(text, 0);
    OthersLastWithoutKeywords();
    if r < |Table| && Table[r].name == OthersName {
      assert r == |Table| - 1;
      assert !Matches(text, Table[r]);
    }
  }

  /** Matching ignores the case of ASCII letters in the title and the URL. */
  lemma CaseInsensitive(title1: string, url1: string, title2: string, url2: string)
    requires SameUpToCase(title1, title2) && SameUpToCase(url1, url2)
    ensures Categorize(title1, url1) == Categorize(title2, url2)
  {
    var a := title1 + " " + url1;
    var b := title2 + " " + url2;
    assert SameUpToCase(a, b) by {
      forall i | 0 <= i < |a|
        ensures LowerChar(a[i]) == LowerChar(b[i])
      {
        if i < |title1| {
          assert a[i] == title1[i] && b[i] == title2[i];
        } else if i > |title1| {
          assert a[i] == url1[i - |title1| - 1] && b[i] == url2[i - |title1| - 1];
        }
      }
    }
    LowerIgnoresCase(a, b);
  }

  /** Table order is priority: text mentioning `news` is filed under News whatever else it mentions. */
  lemma NewsFirst(title: string, url: string)
    requires Contains(SearchText(title, url), "news")
    ensures Categorize(title, url) == "News"
  {
    assert Table[0].keywords[0] == "news";
    FirstMatchWins(title, url, 0);
  }

  /** Text that mentions `tech` but no News keyword is filed under Technology. */
  lemma TechnologySecond(title: string, url: string)
    requires Contains(SearchText(title, url), "tech")
    requires !Matches(SearchText(title, url), Table[0])
    ensures Categorize(title, url) == "Technology"
  {
    assert Table[1].keywords[0] == "tech";
    FirstMatchWins(title, url, 1);
  }
}

=== FILE: content.dfy ===
/**
 * The content script: `categorizeBookmarkAI`, which probes the page's language-model
 * capability, opens a session and prompts it up to five times, and the message
 * handler that turns its outcome into a response.
 *
 * The page's capability is the `Host` record; the session's answers are an oracle
 * giving the outcome of the k-th prompt (counting from 0). The 500 ms pause between
 * attempts and the prompt's wording are not modelled.
 */
module ContentScript {
  import opened Options
  import opened Text
  import opened Messages

  const MaxRetries: nat := 5

  /**
   * The page's capability: whether `window.ai` and `window.ai.languageModel` exist,
   * what `capabilities()` resolves to (its `available` field) or throws, and whether
   * `create()` throws.
   */
  datatype Host = Host(hasAi: bool, hasLanguageModel: bool, capabilities: Result<string, string>, createError: Option<string>)

  /** The outcome of one `session.prompt`. */
  datatype PromptReply = Answered(text: string) | Rejected

  datatype AiError =
    | Unsupported            // no `window.ai` or no `languageModel`
    | ModelUnavailable       // `available === 'no'`
    | RetriesExhausted       // five rejected prompts
    | HostFault(message: string)  // `capabilities()` or `create()` threw

  /** The `message` of the thrown `Error`. */
  function ErrorMessage(e: AiError): string {
    match e
    case Unsupported => "AI capabilities are not available in this context."
    case ModelUnavailable => "AI model is not available."
    case RetriesExhausted => "Failed to categorize bookmark after 5 attempts."
    case HostFault(m) => m
  }

  /**
   * The retry loop once `attempt` prompts have failed: the text of the first answered
   * prompt (the loop returns it trimmed; `CategorizeAI` applies the trim), or
   * `RetriesExhausted` after the fifth rejection; with the total number of prompts
   * issued.
   */
  function RetryFrom(oracle: nat -> PromptReply, attempt: nat): (r: (Result<string, AiError>, nat))
    requires attempt < MaxRetries
    ensures attempt < r.1 <= MaxRetries
    ensures forall j :: attempt <= j < r.1 - 1 ==> oracle(j).Rejected?
    ensures r.0.Ok? ==> oracle(r.1 - 1) == Answered(r.0.value)
    ensures r.0.Err? ==> r.0.error == RetriesExhausted && r.1 == MaxRetries && oracle(MaxRetries - 1).Rejected?
    decreases MaxRetries - attempt
  {
    var issued := attempt + 1;
    if oracle(attempt).Answered? then
      (Ok(oracle(attempt).text), issued)
    else if issued >= MaxRetries then
      (Err(RetriesExhausted), issued)
    else
      RetryFrom(oracle, issued)
  }

  /** The outcome of one classification, whether a session was created, and how many prompts were issued. */
  datatype Run = Run(result: Result<string, AiError>, sessionCreated: bool, prompts: nat)

  /** True when the page offers a model that is not `'no'` and a session can be created. */
  predicate Ready(h: Host) {
    h.hasAi && h.hasLanguageModel && h.capabilities.Ok? && h.capabilities.value != "no" && h.createError.None?
  }

  /** `categorizeBookmarkAI`. */
  function CategorizeAI(h: Host, oracle: nat -> PromptReply): (r: Run)
    ensures !h.hasAi || !h.hasLanguageModel ==> r == Run(Err(Unsupported), false, 0)
    ensures h.hasAi && h.hasLanguageModel && h.capabilities == Ok("no") ==> r == Run(Err(ModelUnavailable), false, 0)
    ensures r.sessionCreated <==> Ready(h)
    ensures r.prompts <= MaxRetries && (r.prompts > 0 <==> r.sessionCreated)
    ensures r.result.Ok? ==>
      r.sessionCreated && oracle(r.prompts - 1).Answered? && r.result.value == Trim(oracle(r.prompts - 1).text)
    ensures r.sessionCreated ==> forall j :: 0 <= j < r.prompts - 1 ==> oracle(j).Rejected?
    ensures r.result == Err(RetriesExhausted) ==>
      r.sessionCreated && r.prompts == MaxRetries && forall j :: 0 <= j < MaxRetries ==> oracle(j).Rejected?
  {
    if !h.hasAi || !h.hasLanguageModel then Run(Err(Unsupported), false, 0)
    else match h.capabilities
      case Err(m) => Run(Err(HostFault(m)), false, 0)
      case Ok(available) =>
        if available == "no" then Run(Err(ModelUnavailable), false, 0)
        else match h.createError
          case Some(m) => Run(Err(HostFault(m)), false, 0)
          case None =>
            var (result, prompts) := RetryFrom(oracle, 0);
            match result
            case Ok(text) => Run(Ok(Trim(text)), true, prompts)
            case Err(e) => Run(Err(e), true, prompts)
  }

  /** The first answered prompt, within five, gives the category, and no prompt follows it. */
  lemma FirstAnswerWins(h: Host, oracle: nat -> PromptReply, k: nat)
    requires Ready(h) && k < MaxRetries && oracle(k).Answered?
    requires forall j :: 0 <= j < k ==> oracle(j).Rejected?
    ensures CategorizeAI(h, oracle) == Run(Ok(Trim(oracle(k).text)), true, k + 1)
  {
    var r := CategorizeAI(h, oracle);
    assert r.prompts == k + 1;
  }

  /** Five rejected prompts, and only that, end in the retries-exhausted error. */
  lemma ExhaustedIffAllRejected(h: Host, oracle: nat -> PromptReply)
    requires Ready(h)
    ensures CategorizeAI(h, oracle).result == Err(RetriesExhausted)
      <==> forall j :: 0 <= j < MaxRetries ==> oracle(j).Rejected?
  {
    var r := CategorizeAI(h, oracle);
    if forall j :: 0 <= j < MaxRetries ==> oracle(j).Rejected? {
      assert !r.result.Ok?;
    }
  }

  /** A successful category never starts or ends with whitespace. */
  lemma CategoryIsTrimmed(h: Host, oracle: nat -> PromptReply)
    requires CategorizeAI(h, oracle).result.Ok?
    ensures var c := CategorizeAI(h, oracle).result.value;
      |c| > 0 ==> !IsSpace(c[0]) && !IsSpace(c[|c| - 1])
  {
    var r := CategorizeAI(h, oracle);
    TrimShape(oracle(r.prompts - 1).text);
  }

  /**
   * The `runtime.onMessage` listener: only `categorizeBookmarkAI` is answered, a
   * resolved category as `{success: true, category}` and a rejection as
   * `{success: false, error}` carrying the error's message.
   */
  function Handle(action: string, h: Host, oracle: nat -> PromptReply): (r: Option<Response>)
    ensures action != CategorizeOneAction ==> r.None?
    ensures action == CategorizeOneAction ==> r.Some?
    ensures r.Some? ==> (r.value.Succeeded? <==> CategorizeAI(h, oracle).result.Ok?)
    ensures r.Some? && r.value.Succeeded? ==> r.value.category == CategorizeAI(h, oracle).result.value
    ensures r.Some? && r.value.Failed? ==> r.value.error == ErrorMessage(CategorizeAI(h, oracle).result.error)
  {
    if action != CategorizeOneAction then None
    else match CategorizeAI(h, oracle).result
      case Ok(category) => Some(Succeeded(category))
      case Err(e) => Some(Failed(ErrorMessage(e)))
  }

  /** No branch answers a batch request. */
  lemma BatchRequestUnanswered(h: Host, oracle: nat -> PromptReply)
    ensures Handle(CategorizeBatchAction, h, oracle).None?
  {
  }
}

=== FILE: gateway.dfy ===
/**
 * The background script's side of classification: the cached classification tab
 * (`categorizationTabId`, `contentScriptInjected`) and its set-up, and the two calls
 * that message the content script, `categorizeBookmark` for one bookmark and
 * `categorizeBookmarksBatch` / `categorizeBookmarkBatchInContentScript` for a batch.
 * Both calls fall back to "Others" on any failure instead of throwing.
 */
module Gateway {
  import opened Options
  import opened Text
  import opened Messages

  type TabId = int

  /** `categorizationTabId` (null is `None`) and `contentScriptInjected`. */
  datatype Cache = Cache(tabId: Option<TabId>, injected: bool)

  const Fresh: Cache := Cache(None, false)

  /** What `tabs.get(categorizationTabId)` shows: gone covers both a throw and no tab. */
  datatype Probe = Gone | Unloaded | Alive

  /** A tab as `tabs.query({})` lists it. */
  datatype Tab = Tab(id: Option<TabId>, url: Option<string>)

  /** `tab.id !== undefined && tab.url && tab.url.startsWith('http')`. */
  predicate Usable(t: Tab) {
    t.id.Some? && t.url.Some? && t.url.value != "" && StartsWith(t.url.value, "http")
  }

  function FirstUsable(tabs: seq<Tab>): (r: Option<nat>)
    ensures r.Some? ==> r.value < |tabs| && Usable(tabs[r.value])
    ensures r.Some? ==> forall j :: 0 <= j < r.value ==> !Usable(tabs[j])
    ensures r.None? ==> forall j :: 0 <= j < |tabs| ==> !Usable(tabs[j])
  {
    if |tabs| == 0 then None
    else if Usable(tabs[0]) then Some(0)
    else match FirstUsable(tabs[1..])
      case None => None
      case Some(k) => Some(k + 1)
  }

  datatype SetupError = NoTabs | NoSuitableTab | InjectionFailed

  /**
   * The cache after set-up, the tab to message (or why there is none), whether
   * `tabs.query` ran, and whether the content script was injected (attempted).
   */
  datatype Setup = Setup(cache: Cache, tab: Result<TabId, SetupError>, queried: bool, injecting: bool)

  /** The flag is only ever set for a cached tab. */
  predicate Consistent(c: Cache) {
    c.tabId.None? ==> !c.injected
  }

  /** The first step of set-up: forget a cached tab that is gone or unloaded. */
  function Revalidate(c: Cache, probe: Probe): Cache {
    if c.tabId.Some? && probe != Alive then Fresh else c
  }

  /**
   * `setupCategorizationTabAndContentScript`, with `probe` the state of the cached tab,
   * `tabs` the result of `tabs.query({})` and `injectFails` whether
   * `scripting.executeScript` throws.
   */
  function SetUp(c: Cache, probe: Probe, tabs: seq<Tab>, injectFails: bool): (r: Setup)
    // a live cached tab that has the script is reused as is
    ensures c.tabId.Some? && probe == Alive && c.injected ==> r == Setup(c, Ok(c.tabId.value), false, false)
    // a new tab is searched for exactly when there is no live cached tab
    ensures r.queried <==> c.tabId.None? || probe != Alive
    ensures r.queried && |tabs| == 0 ==> r.tab == Err(NoTabs) && r.cache.tabId.None?
    ensures r.queried && FirstUsable(tabs).None? ==> r.tab.Err? && r.cache.tabId.None? && !r.injecting
    ensures r.queried && FirstUsable(tabs).Some? ==> r.cache.tabId == tabs[FirstUsable(tabs).value].id
    ensures !r.queried ==> r.cache.tabId == c.tabId
    // injection happens only while the flag is false, and on success the flag is set
    ensures r.injecting ==> !(c.tabId.Some? && probe == Alive && c.injected)
    ensures r.injecting <==> r.cache.tabId.Some? && (r.tab.Ok? || r.tab == Err(InjectionFailed)) && !(c.tabId.Some? && probe == Alive && c.injected)
    ensures r.tab.Ok? <==> r.cache.tabId.Some? && r.cache.injected
    ensures r.tab.Ok? ==> r.cache == Cache(Some(r.tab.value), true)
    ensures r.tab == Err(InjectionFailed) <==> r.injecting && injectFails
    ensures r.tab == Err(InjectionFailed) ==> r.cache.tabId.Some? && !r.cache.injected
    ensures Consistent(c) ==> Consistent(r.cache)
  {
    var c1 := Revalidate(c, probe);
    var queried := c1.tabId.None?;
    var c2 :=
      if !queried then c1
      else if |tabs| == 0 then c1
      else match FirstUsable(tabs)
        case None => c1
        case Some(k) => Cache(tabs[k].id, false);
    if c2.tabId.None? then
      Setup(c2, Err(if |tabs| == 0 then NoTabs else NoSuitableTab), queried, false)
    else if c2.injected then
      Setup(c2, Ok(c2.tabId.value), queried, false)
    else if injectFails then
      Setup(c2, Err(InjectionFailed), queried, true)
    else
      Setup(c2.(injected := true), Ok(c2.tabId.value), queried, true)
  }

  /**
   * Once set-up has succeeded, a second one while the tab stays alive reuses it:
   * no query, no second injection.
   */
  lemma InjectOncePerTab(c: Cache, probe: Probe, tabs: seq<Tab>, injectFails: bool,
                         tabs2: seq<Tab>, injectFails2: bool)
    requires SetUp(c, probe, tabs, injectFails).tab.Ok?
    ensures var r1 := SetUp(c, probe, tabs, injectFails);
      SetUp(r1.cache, Alive, tabs2, injectFails2) == Setup(r1.cache, r1.tab, false, false)
  {
  }

  /** The name every fallback path answers. */
  const DefaultCategory: string := "Others"

  /**
   * `categorizeBookmark` in the background script: set up, message the tab, and
   * answer its category, or "Others" when set-up fails, the message gets no usable
   * answer (`reply` is `None`) or the content script reports a failure.
   */
  function CategorizeOne(c: Cache, probe: Probe, tabs: seq<Tab>, injectFails: bool, reply: Option<Response>): (r: (Cache, string))
    ensures r.0 == SetUp(c, probe, tabs, injectFails).cache
    ensures SetUp(c, probe, tabs, injectFails).tab.Ok? && reply.Some? && reply.value.Succeeded? ==> r.1 == reply.value.category
    ensures !(SetUp(c, probe, tabs, injectFails).tab.Ok? && reply.Some? && reply.value.Succeeded?) ==> r.1 == DefaultCategory
  {
    var setup := SetUp(c, probe, tabs, injectFails);
    if setup.tab.Err? then (setup.cache, DefaultCategory)
    else match reply
      case Some(Succeeded(category)) => (setup.cache, category)
      case _ => (setup.cache, DefaultCategory)
  }

  /** `titles.map(() => 'Others')`: one "Others" per item. */
  function Fallback(n: nat): (r: seq<string>)
    ensures |r| == n && forall i :: 0 <= i < n ==> r[i] == DefaultCategory
  {
    seq(n, _ => DefaultCategory)
  }

  /**
   * `categorizeBookmarksBatch` for `n` bookmarks, as written: on success the answer's
   * `categories` are returned unchecked (possibly undefined, possibly of another
   * length); every other path returns `n` times "Others". The outer `catch` of
   * `categorizeBookmarksBatch` cannot be reached: the inner call catches everything.
   */
  function CategorizeBatch(c: Cache, probe: Probe, tabs: seq<Tab>, injectFails: bool,
                           reply: Option<BatchResponse>, n: nat): (r: (Cache, Option<seq<string>>))
    ensures r.0 == SetUp(c, probe, tabs, injectFails).cache
    ensures SetUp(c, probe, tabs, injectFails).tab.Ok? && reply.Some? && reply.value.success ==> r.1 == reply.value.categories
    ensures !(SetUp(c, probe, tabs, injectFails).tab.Ok? && reply.Some? && reply.value.success) ==> r.1 == Some(Fallback(n))
  {
    var setup := SetUp(c, probe, tabs, injectFails);
    if setup.tab.Err? then (setup.cache, Some(Fallback(n)))
    else match reply
      case Some(BatchResponse(true, categories)) => (setup.cache, categories)
      case _ => (setup.cache, Some(Fallback(n)))
  }

  /** An answer is aligned with a batch of `n` when it names exactly `n` categories. */
  predicate Aligned(categories: Option<seq<string>>, n: nat) {
    categories.Some? && |categories.value| == n
  }

  /** As written, a successful answer with too few categories is passed on: the batch is misaligned. */
  lemma ShortAnswerPassesUnchecked(c: Cache, probe: Probe, tabs: seq<Tab>)
    requires SetUp(c, probe, tabs, false).tab.Ok?
    ensures var r := CategorizeBatch(c, probe, tabs, false, Some(BatchResponse(true, Some(["News"]))), 2);
      !Aligned(r.1, 2)
  {
  }

  /**
   * The batch call with the length check `categorizeBookmarksBatch` omits
   * (background.ts:401-403): an answer whose categories are undefined or not exactly
   * one per item counts as a failure.
   */
  function CategorizeBatchChecked(c: Cache, probe: Probe, tabs: seq<Tab>, injectFails: bool,
                                  reply: Option<BatchResponse>, n: nat): (r: (Cache, Option<seq<string>>))
    ensures r.0 == SetUp(c, probe, tabs, injectFails).cache
    ensures Aligned(r.1, n)
    ensures r.1 != Some(Fallback(n)) ==> SetUp(c, probe, tabs, injectFails).tab.Ok? && reply.Some? && reply.value.success && r.1 == reply.value.categories
  {
    var (cache, categories) := CategorizeBatch(c, probe, tabs, injectFails, reply, n);
    if Aligned(categories, n) then (cache, categories) else (cache, Some(Fallback(n)))
  }

  /** The checked call only departs from the unchecked one when the unchecked one is misaligned. */
  lemma CheckedAgreesWhenAligned(c: Cache, probe: Probe, tabs: seq<Tab>, injectFails: bool,
                                 reply: Option<BatchResponse>, n: nat)
    ensures var r := CategorizeBatch(c, probe, tabs, injectFails, reply, n);
      Aligned(r.1, n) <==> CategorizeBatchChecked(c, probe, tabs, injectFails, reply, n) == r
  {
  }
}

=== FILE: messages.dfy ===
/** The messages the background script and the content script exchange. */
module Messages {
  import opened Options

  /** The action the content script answers: classify one bookmark. */
  const CategorizeOneAction: string := "categorizeBookmarkAI"

  /** The action the background script sends for a batch. */
  const CategorizeBatchAction: string := "categorizeBookmarkBatchAI"

  /** The content script's answer to a single classification. */
  datatype Response =
    | Succeeded(category: string)  // `{success: true, category}`
    | Failed(error: string)        // `{success: false, error}`

  /** What the background script reads from a batch answer; `categories` may be undefined. */
  datatype BatchResponse = BatchResponse(success: bool, categories: Option<seq<string>>)
}

=== FILE: options.dfy ===
/** Optional values and success/failure results shared by every module of the model. */
module Options {

  /** A value that may be absent; `None` stands for JavaScript's `undefined`. */
  datatype Option<T> = None | Some(value: T) {

    /** The wrapped value, or `default` when absent. */
    function GetOr(default: T): T {
      match this
      case Some(v) => v
      case None => default
    }
  }

  /** The outcome of an operation that may throw: `Err` carries what was thrown. */
  datatype Result<T, E> = Ok(value: T) | Err(error: E)
}

=== FILE: organizer.dfy ===
/**
 * The bulk organiser, `organizeAllBookmarks`, and the background script's
 * `organizeBookmarks` message listener: collect every bookmark of the tree, cut the
 * list into batches of 25, classify each batch in one call and place its bookmarks
 * one by one, batch after batch.
 *
 * The browser's answers are an environment `Env`: the `getTree` snapshot (or `None`
 * when it throws), the set-up and reply seen by the k-th batch, and the faults of the
 * placement of the i-th bookmark overall.
 */
module Organizer {
  import opened Options
  import opened Bookmarks
  import opened Placement
  import opened Gateway
  import opened Messages

  const BatchSize: nat := 25

  /**
   * A node of the `getTree()` snapshot. A folder carries `children`; a bookmark carries
   * a URL, which `traverseBookmarks` tests for truthiness.
   */
  datatype Node =
    | Folder(id: Id, title: string, children: seq<Node>)
    | Item(id: Id, title: string, url: Option<string>)

  /** A node `traverseBookmarks` collects: a bookmark with a non-empty URL. */
  predicate IsLeaf(n: Node) {
    n.Item? && HasUrl(n.url)
  }

  /** `traverseBookmarks`: folders recurse, bookmarks with a URL are collected. */
  function Leaves(nodes: seq<Node>): (r: seq<Node>)
    ensures forall x :: x in r ==> IsLeaf(x)
    decreases nodes
  {
    if |nodes| == 0 then []
    else
      var here := match nodes[0]
        case Folder(_, _, kids) => Leaves(kids)
        case Item(_, _, url) => if HasUrl(url) then [nodes[0]] else [];
      here + Leaves(nodes[1..])
  }

  /** Every node of the forest, depth first, left to right, each node before its descendants. */
  function Preorder(nodes: seq<Node>): seq<Node>
    decreases nodes
  {
    if |nodes| == 0 then []
    else
      var below := match nodes[0]
        case Folder(_, _, kids) => Preorder(kids)
        case Item(_, _, _) => [];
      [nodes[0]] + below + Preorder(nodes[1..])
  }

  /** The leaves among `ns`, in order. */
  function KeepLeaves(ns: seq<Node>): seq<Node> {
    if |ns| == 0 then [] else (if IsLeaf(ns[0]) then [ns[0]] else []) + KeepLeaves(ns[1..])
  }

  lemma {:induction false} KeepLeavesAppend(a: seq<Node>, b: seq<Node>)
    ensures KeepLeaves(a + b) == KeepLeaves(a) + KeepLeaves(b)
  {
    if |a| > 0 {
      assert (a + b)[1..] == a[1..] + b;
      KeepLeavesAppend(a[1..], b);
    } else {
      assert a + b == b;
    }
  }

  lemma KeepLeavesSingle(n: Node)
    ensures KeepLeaves([n]) == if IsLeaf(n) then [n] else []
  {
    assert [n][1..] == [];
  }

  /**
   * The traversal yields exactly the leaves of the forest, in depth-first left-to-right
   * order: the bookmarks with a URL, and nothing else.
   */
  lemma {:induction false} LeavesInPreorder(nodes: seq<Node>)
    ensures Leaves(nodes) == KeepLeaves(Preorder(nodes))
    decreases nodes
  {
    if |nodes| > 0 {
      var n := nodes[0];
      var below := if n.Folder? then Preorder(n.children) else [];
      var here := if n.Folder? then Leaves(n.children) else if HasUrl(n.url) then [n] else [];
      assert Leaves(nodes) == here + Leaves(nodes[1..]);
      assert Preorder(nodes) == ([n] + below) + Preorder(nodes[1..]);
      KeepLeavesAppend([n] + below, Preorder(nodes[1..]));
      KeepLeavesAppend([n], below);
      KeepLeavesSingle(n);
      if n.Folder? {
        LeavesInPreorder(n.children);
      }
      assert KeepLeaves([n] + below) == here;
      LeavesInPreorder(nodes[1..]);
    }
  }

  /** The concatenation of a sequence of sequences. */
  function Flatten<T>(ss: seq<seq<T>>): seq<T> {
    if |ss| == 0 then [] else ss[0] + Flatten(ss[1..])
  }

  /** The batches: consecutive slices of 25 items, the last one possibly shorter. */
  function Chunks<T>(xs: seq<T>): seq<seq<T>>
    decreases |xs|
  {
    if |xs| == 0 then []
    else if |xs| <= BatchSize then [xs]
    else [xs[..BatchSize]] + Chunks(xs[BatchSize..])
  }

  /**
   * Batching loses, duplicates and reorders nothing; no batch is empty or larger than
   * 25, every batch but the last has exactly 25 items, and there are ceil(n / 25).
   */
  lemma {:induction false} ChunksShape<T>(xs: seq<T>)
    ensures Flatten(Chunks(xs)) == xs
    ensures forall i :: 0 <= i < |Chunks(xs)| ==> 0 < |Chunks(xs)[i]| <= BatchSize
    ensures forall i :: 0 <= i < |Chunks(xs)| - 1 ==> |Chunks(xs)[i]| == BatchSize
    ensures |Chunks(xs)| == (|xs| + BatchSize - 1) / BatchSize
    decreases |xs|
  {
    if 0 < |xs| <= BatchSize {
      assert Flatten([xs]) == xs + Flatten([xs][1..]);
    } else if |xs| > BatchSize {
      var rest := Chunks(xs[BatchSize..]);
      ChunksShape(xs[BatchSize..]);
      var r := [xs[..BatchSize]] + rest;
      assert r == Chunks(xs);
      assert r[1..] == rest;
      assert xs == xs[..BatchSize] + xs[BatchSize..];
      assert (|xs| + BatchSize - 1) / BatchSize == 1 + (|xs| - 1) / BatchSize;
    }
  }

  function Min(a: int, b: int): int {
    if a <= b then a else b
  }

  /** One turn of the batching loop, seen on `Chunks`: the slice at `i`, then the batches after it. */
  lemma ChunksStep<T>(xs: seq<T>, i: nat)
    requires i < |xs|
    ensures Chunks(xs[i..]) == [xs[i..Min(i + BatchSize, |xs|)]] + Chunks(xs[Min(i + BatchSize, |xs|)..])
  {
    var end := Min(i + BatchSize, |xs|);
    var rest := xs[i..];
    if |rest| > BatchSize {
      assert rest[..BatchSize] == xs[i..end];
      assert rest[BatchSize..] == xs[end..];
    } else {
      assert rest == xs[i..end];
      assert xs[end..] == [];
    }
  }

  /** The batching loop: `for (i = 0; i < n; i += 25) batches.push(xs.slice(i, i + 25))`. */
  method MakeBatches<T>(xs: seq<T>) returns (batches: seq<seq<T>>)
    ensures batches == Chunks(xs)
  {
    batches := [];
    var i: nat := 0;
    while i < |xs|
      invariant batches + Chunks(xs[Min(i, |xs|)..]) == Chunks(xs)
    {
      var end := Min(i + BatchSize, |xs|);
      ChunksStep(xs, i);
      assert xs[Min(i, |xs|)..] == xs[i..];
      batches := batches + [xs[i..end]];
      i := i + BatchSize;
      assert Min(i, |xs|) == end;
    }
  }

  /** The background script's mutable state the organiser touches. */
  datatype World = World(store: Store, moving: set<Id>, cache: Cache)

  /** One call `placeBookmarkInFolder(id, name)`. */
  datatype PlaceCall = PlaceCall(id: Id, name: Option<string>)

  /** `categories[i]`: undefined past the end. */
  function CategoryAt(categories: seq<string>, i: nat): (r: Option<string>)
    ensures r.Some? <==> i < |categories|
    ensures r.Some? ==> r.value == categories[i]
  {
    if i < |categories| then Some(categories[i]) else None
  }

  /** One call `placeBookmarkInFolder(id, name)` for the loop: the store and set it leaves. */
  function PlaceStep(s: Store, moving: set<Id>, call: PlaceCall, f: Faults): (r: (Store, set<Id>))
    requires Valid(s)
    ensures Valid(r.0) && r.1 <= moving
  {
    var p := Place(s, moving, call.id, call.name, f);
    (p.store, p.moving)
  }

  /**
   * The store and suppression set that the placements `calls` leave when made one after
   * the other, the `k`-th placement of the run seeing the faults `faults(k)` and the
   * first of `calls` being placement number `at`.
   */
  function PlaceAll(s: Store, moving: set<Id>, calls: seq<PlaceCall>, faults: nat -> Faults, at: nat): (r: (Store, set<Id>))
    requires Valid(s)
    ensures Valid(r.0) && r.1 <= moving
    decreases |calls|
  {
    if |calls| == 0 then (s, moving)
    else
      var p := Place(s, moving, calls[0].id, calls[0].name, faults(at));
      PlaceAll(p.store, p.moving, calls[1..], faults, at + 1)
  }

  /** The calls the loop over one batch makes from item `from` on, one per item, in order. */
  function CallsFrom(items: seq<Node>, categories: seq<string>, from: nat): (r: seq<PlaceCall>)
    requires from <= |items|
    ensures |r| == |items| - from
    ensures forall i :: 0 <= i < |r| ==> r[i] == PlaceCall(items[from + i].id, CategoryAt(categories, from + i))
    decreases |items| - from
  {
    if from == |items| then []
    else
      var later := CallsFrom(items, categories, from + 1);
      assert forall i :: 1 <= i < |later| + 1 ==> ([PlaceCall(items[from].id, CategoryAt(categories, from))] + later)[i] == later[i - 1];
      [PlaceCall(items[from].id, CategoryAt(categories, from))] + later
  }

  /**
   * The loop over one batch from item `from` on: place each item under the category at
   * its position. `placeBookmarkInFolder` never throws, so every item is processed; the
   * `k`-th placement of the run sees the faults `faults(k)`, and `at` placements came before.
   */
  function PlaceItems(s: Store, moving: set<Id>, items: seq<Node>, categories: seq<string>,
                      from: nat, faults: nat -> Faults, at: nat): (r: (Store, set<Id>, seq<PlaceCall>))
    requires Valid(s) && from <= |items|
    ensures r.2 == CallsFrom(items, categories, from)
    ensures (r.0, r.1) == PlaceAll(s, moving, r.2, faults, at)
    decreases |items| - from
  {
    if from == |items| then (s, moving, [])
    else
      var call := PlaceCall(items[from].id, CategoryAt(categories, from));
      var p := PlaceStep(s, moving, call, faults(at));
      var later := PlaceItems(p.0, p.1, items, categories, from + 1, faults, at + 1);
      assert ([call] + later.2)[1..] == later.2;
      (later.0, later.1, [call] + later.2)
  }

  /** What the k-th batch sees: the classification tab's state, the tabs, and the reply. */
  datatype BatchEnv = BatchEnv(probe: Probe, tabs: seq<Tab>, injectFails: bool, reply: Option<BatchResponse>)

  /** `categorizeBookmarksBatch`, as written or with the count check. */
  function BatchCategories(c: Cache, e: BatchEnv, n: nat, checkCount: bool): (Cache, Option<seq<string>>) {
    if checkCount then CategorizeBatchChecked(c, e.probe, e.tabs, e.injectFails, e.reply, n)
    else CategorizeBatch(c, e.probe, e.tabs, e.injectFails, e.reply, n)
  }

  /** `calls` places every one of `items`, in order, each under a defined category. */
  predicate PlacesAll(calls: seq<PlaceCall>, items: seq<Node>) {
    && |calls| == |items|
    && forall i :: 0 <= i < |items| ==> calls[i].id == items[i].id && calls[i].name.Some?
  }

  /** Every call of `calls` names the category `name`. */
  predicate AllUnder(calls: seq<PlaceCall>, name: string) {
    forall i :: 0 <= i < |calls| ==> calls[i].name == Some(name)
  }

  lemma AllUnderAppend(c1: seq<PlaceCall>, c2: seq<PlaceCall>, name: string)
    ensures AllUnder(c1, name) && AllUnder(c2, name) ==> AllUnder(c1 + c2, name)
  {
    if AllUnder(c1, name) && AllUnder(c2, name) {
      forall i | 0 <= i < |c1 + c2|
        ensures (c1 + c2)[i].name == Some(name)
      {
        if i >= |c1| {
          assert (c1 + c2)[i] == c2[i - |c1|];
        }
      }
    }
  }

  lemma PlacesAllAppend(c1: seq<PlaceCall>, i1: seq<Node>, c2: seq<PlaceCall>, i2: seq<Node>)
    ensures PlacesAll(c1, i1) && PlacesAll(c2, i2) ==> PlacesAll(c1 + c2, i1 + i2)
  {
    if PlacesAll(c1, i1) && PlacesAll(c2, i2) {
      forall i | 0 <= i < |i1 + i2|
        ensures (c1 + c2)[i].id == (i1 + i2)[i].id && (c1 + c2)[i].name.Some?
      {
        if i >= |i1| {
          assert (c1 + c2)[i] == c2[i - |c1|];
          assert (i1 + i2)[i] == i2[i - |i1|];
        }
      }
    }
  }

  /** `calls` places exactly the items of `items`, position by position. */
  predicate SameIds(calls: seq<PlaceCall>, items: seq<Node>) {
    |calls| == |items| && forall i :: 0 <= i < |items| ==> calls[i].id == items[i].id
  }

  /** Batch by batch in order, `calls` holds either every item of a batch or none of it. */
  predicate Batchwise(calls: seq<PlaceCall>, bs: seq<seq<Node>>)
    decreases |bs|
  {
    if |bs| == 0 then calls == []
    else
      || Batchwise(calls, bs[1..])
      || (|bs[0]| <= |calls| && SameIds(calls[..|bs[0]|], bs[0]) && Batchwise(calls[|bs[0]|..], bs[1..]))
  }

  lemma BatchwiseCons(c1: seq<PlaceCall>, c2: seq<PlaceCall>, bs: seq<seq<Node>>)
    requires |bs| > 0 && (c1 == [] || SameIds(c1, bs[0])) && Batchwise(c2, bs[1..])
    ensures Batchwise(c1 + c2, bs)
  {
    if c1 == [] {
      assert c1 + c2 == c2;
    } else {
      assert (c1 + c2)[..|bs[0]|] == c1;
      assert (c1 + c2)[|bs[0]|..] == c2;
    }
  }

  lemma SameIdsAppend(c1: seq<PlaceCall>, i1: seq<Node>, c2: seq<PlaceCall>, i2: seq<Node>)
    ensures SameIds(c1, i1) && SameIds(c2, i2) ==> SameIds(c1 + c2, i1 + i2)
  {
    if SameIds(c1, i1) && SameIds(c2, i2) {
      forall i | 0 <= i < |i1 + i2|
        ensures (c1 + c2)[i].id == (i1 + i2)[i].id
      {
        if i >= |i1| {
          assert (c1 + c2)[i] == c2[i - |c1|];
          assert (i1 + i2)[i] == i2[i - |i1|];
        }
      }
    }
  }

  lemma FlattenCons<T>(bs: seq<seq<T>>)
    requires |bs| > 0
    ensures Flatten(bs) == bs[0] + Flatten(bs[1..])
  {
  }

  /**
   * One batch: classify it, then place its items in order. Undefined categories make
   * `categories[0]` throw; the batch's `catch` logs it and nothing of the batch is placed.
   * `base` placements of the run came before.
   */
  function ProcessBatch(w: World, batch: seq<Node>, e: BatchEnv, faults: nat -> Faults, base: nat, checkCount: bool): (r: (World, seq<PlaceCall>))
    requires Valid(w.store)
    ensures Valid(r.0.store) && r.0.moving <= w.moving
    ensures var a := BatchCategories(w.cache, e, |batch|, checkCount);
      && r.0.cache == a.0
      && (a.1.None? ==> r.1 == [] && r.0.store == w.store && r.0.moving == w.moving)
      && (a.1.Some? ==> r.1 == CallsFrom(batch, a.1.value, 0))
    ensures r.0.store == PlaceAll(w.store, w.moving, r.1, faults, base).0
    ensures r.0.moving == PlaceAll(w.store, w.moving, r.1, faults, base).1
    ensures r.1 == [] || |r.1| == |batch|
    ensures forall i :: 0 <= i < |r.1| ==> r.1[i].id == batch[i].id
    ensures checkCount ==> PlacesAll(r.1, batch)
    ensures e.reply.None? ==> PlacesAll(r.1, batch) && AllUnder(r.1, DefaultCategory)
  {
    var answer := BatchCategories(w.cache, e, |batch|, checkCount);
    match answer.1
    case None => (w.(cache := answer.0), [])
    case Some(categories) =>
      var placed := PlaceItems(w.store, w.moving, batch, categories, 0, faults, base);
      (World(placed.0, placed.1, answer.0), placed.2)
  }

  /**
   * The browser's answers during one run: the tree, what the k-th batch sees, and the
   * faults of the k-th placement of the run.
   */
  datatype Env = Env(tree: Option<seq<Node>>, batch: nat -> BatchEnv, faults: nat -> Faults)

  /**
   * Every batch answer that reports success carries `categories`: no batch makes
   * `categories[0]` throw.
   */
  ghost predicate CategoriesNeverMissing(env: Env) {
    forall k :: env.batch(k).reply.None? || !env.batch(k).reply.value.success || env.batch(k).reply.value.categories.Some?
  }

  /** No batch request is ever answered (the message reaches no listener that replies). */
  ghost predicate Unanswered(env: Env) {
    forall k :: env.batch(k).reply.None?
  }

  /** The batches from the k-th on, strictly one after the other; `base` placements came before. */
  function RunBatches(w: World, bs: seq<seq<Node>>, k: nat, base: nat, env: Env, checkCount: bool): (r: (World, seq<PlaceCall>))
    requires Valid(w.store)
    ensures Valid(r.0.store) && r.0.moving <= w.moving
    ensures |r.1| <= |Flatten(bs)|
    ensures checkCount ==> PlacesAll(r.1, Flatten(bs))
    ensures Batchwise(r.1, bs)
    ensures CategoriesNeverMissing(env) ==> SameIds(r.1, Flatten(bs))
    ensures Unanswered(env) ==> PlacesAll(r.1, Flatten(bs)) && AllUnder(r.1, DefaultCategory)
    decreases |bs|
  {
    if |bs| == 0 then (w, [])
    else
      var first := ProcessBatch(w, bs[0], env.batch(k), env.faults, base, checkCount);
      var later := RunBatches(first.0, bs[1..], k + 1, base + |first.1|, env, checkCount);
      FlattenCons(bs);
      PlacesAllAppend(first.1, bs[0], later.1, Flatten(bs[1..]));
      AllUnderAppend(first.1, later.1, DefaultCategory);
      BatchwiseCons(first.1, later.1, bs);
      SameIdsAppend(first.1, bs[0], later.1, Flatten(bs[1..]));
      (later.0, first.1 + later.1)
  }

  /** A message to the popup: `organizationComplete` (with or without a duration) or `organizationError`. */
  datatype PopupMessage = Complete(withDuration: bool) | OrganizationError

  /**
   * The outcome of one run: the state afterwards, the placements in the order they were
   * made (their number is `processedCount`), `totalBookmarks`, and the messages sent.
   */
  datatype Report = Report(world: World, calls: seq<PlaceCall>, total: nat, messages: seq<PopupMessage>)

  /**
   * `organizeAllBookmarks`: a failing `getTree` is reported as `organizationError`;
   * otherwise every batch is run and `organizationComplete` is sent, whatever happened
   * to the batches. `checkCount` selects the batch classifier that checks the answer's
   * length.
   */
  function OrganizeAll(w: World, env: Env, checkCount: bool): (r: Report)
    requires Valid(w.store)
    ensures Valid(r.world.store) && r.world.moving <= w.moving
    ensures r.messages == [OrganizationError] <==> env.tree.None?
    ensures env.tree.None? ==> r.world == w && r.calls == []
    ensures env.tree.Some? ==>
      && r.messages == [Complete(true)]
      && r.total == |Leaves(env.tree.value)|
      && |r.calls| <= r.total
    ensures env.tree.Some? && (checkCount || Unanswered(env)) ==> PlacesAll(r.calls, Leaves(env.tree.value))
    ensures env.tree.Some? && Unanswered(env) ==> AllUnder(r.calls, DefaultCategory)
    ensures env.tree.Some? && CategoriesNeverMissing(env) ==> SameIds(r.calls, Leaves(env.tree.value))
  {
    match env.tree
    case None => Report(w, [], 0, [OrganizationError])
    case Some(tree) =>
      var leaves := Leaves(tree);
      ChunksShape(leaves);
      var run := RunBatches(w, Chunks(leaves), 0, 0, env, checkCount);
      Report(run.0, run.1, |leaves|, [Complete(true)])
  }

  const OrganizeAction: string := "organizeBookmarks"

  /**
   * The background script's listener as written: `organizeAllBookmarks` catches its own
   * errors and never throws, so the listener's `organizationComplete` (without duration)
   * always follows whatever the run already sent.
   */
  function OnMessageAsWritten(action: string, w: World, env: Env): (r: Report)
    requires Valid(w.store)
    ensures action != OrganizeAction ==> r == Report(w, [], 0, [])
    ensures action == OrganizeAction ==> |r.messages| == 2 && r.messages[1] == Complete(false)
  {
    if action != OrganizeAction then Report(w, [], 0, [])
    else
      var run := OrganizeAll(w, env, false);
      run.(messages := run.messages + [Complete(false)])
  }

  /** As written, a failed run tells the popup first that it failed, then that it completed. */
  lemma ErrorThenComplete(w: World, env: Env)
    requires Valid(w.store) && env.tree.None?
    ensures OnMessageAsWritten(OrganizeAction, w, env).messages == [OrganizationError, Complete(false)]
  {
  }

  /**
   * The listener with exactly one verdict per run: the run's own message. It uses the
   * length-checking batch classifier, so every bookmark collected is placed under a
   * defined category.
   */
  function OnMessage(action: string, w: World, env: Env): (r: Report)
    requires Valid(w.store)
    ensures Valid(r.world.store)
    ensures action != OrganizeAction ==> r == Report(w, [], 0, [])
    ensures action == OrganizeAction ==>
      && |r.messages| == 1
      && (r.messages[0] == OrganizationError <==> env.tree.None?)
      && (env.tree.Some? ==> PlacesAll(r.calls, Leaves(env.tree.value)) && r.total == |r.calls|)
  {
    if action != OrganizeAction then Report(w, [], 0, [])
    else OrganizeAll(w, env, true)
  }

  /**
   * As written, a successful batch answer shorter than its batch is used as is: the
   * second bookmark is placed under an undefined category. The length-checking
   * classifier files both under the default category instead.
   */
  lemma ShortAnswerMisplaces(w: World, a: Node, b: Node, e: BatchEnv, faults: nat -> Faults, base: nat)
    requires Valid(w.store)
    requires SetUp(w.cache, e.probe, e.tabs, e.injectFails).tab.Ok?
    requires e.reply == Some(BatchResponse(true, Some(["News"])))
    ensures ProcessBatch(w, [a, b], e, faults, base, false).1 == [PlaceCall(a.id, Some("News")), PlaceCall(b.id, None)]
    ensures ProcessBatch(w, [a, b], e, faults, base, true).1 == [PlaceCall(a.id, Some(DefaultCategory)), PlaceCall(b.id, Some(DefaultCategory))]
  {
    var checked := CategorizeBatchChecked(w.cache, e.probe, e.tabs, e.injectFails, e.reply, 2);
    assert checked.1 == Some(Fallback(2));
  }

  /**
   * As written, a successful answer without `categories` makes `categories[0]` throw:
   * the batch is skipped, yet the run still reports completion.
   */
  lemma MissingCategoriesSkipBatch(w: World, batch: seq<Node>, e: BatchEnv, faults: nat -> Faults, base: nat)
    requires Valid(w.store) && |batch| > 0
    requires SetUp(w.cache, e.probe, e.tabs, e.injectFails).tab.Ok?
    requires e.reply == Some(BatchResponse(true, None))
    ensures ProcessBatch(w, batch, e, faults, base, false).1 == []
    ensures PlacesAll(ProcessBatch(w, batch, e, faults, base, true).1, batch)
  {
  }
}

=== FILE: pipeline.dfy ===
/**
 * The automatic path end to end: a created bookmark's timer fires, `processBookmark`
 * reads the bookmark and its pending record, asks the content script in the
 * classification tab for a category, and places the bookmark under it.
 */
module Pipeline {
  import opened Options
  import opened Bookmarks
  import opened Tracker
  import opened Placement
  import opened Gateway
  import opened Messages
  import ContentScript
  import Text

  /** `bookmarks.get(id)`: throws for an unknown id, or when the call itself fails. */
  function Fetch(s: Store, id: Id, fails: bool): (f: Fetched)
    ensures f.Fetched? <==> !fails && id in s.entries
    ensures f.Fetched? ==> f.title == s.entries[id].title && f.url == s.entries[id].url
  {
    if fails || id !in s.entries then FetchFailed else Fetched(s.entries[id].title, s.entries[id].url)
  }

  /**
   * The browser and the page during one `processBookmark`: whether `get` throws, the
   * classification tab's state and the open tabs, whether injection throws, whether
   * `tabs.sendMessage` rejects, the page's language-model host and its answers to
   * successive prompts, and the placement's faults.
   */
  datatype Browser = Browser(
    getFails: bool, probe: Probe, tabs: seq<Tab>, injectFails: bool, messageFails: bool,
    page: ContentScript.Host, oracle: nat -> ContentScript.PromptReply, faults: Faults)

  /** True when the classification tab is usable, the message arrives and the page's model answers. */
  predicate Answers(c: Cache, b: Browser) {
    && SetUp(c, b.probe, b.tabs, b.injectFails).tab.Ok?
    && !b.messageFails
    && ContentScript.CategorizeAI(b.page, b.oracle).result.Ok?
  }

  /**
   * `categorizeBookmark(title, url)` with the content script's answer: the model's
   * category when the tab is usable, the message is delivered and the model answers;
   * "Others" otherwise, including when `sendMessage` rejects and the catch takes over.
   */
  function Classify(c: Cache, b: Browser): (r: (Cache, string))
    ensures r.0 == SetUp(c, b.probe, b.tabs, b.injectFails).cache
    ensures Answers(c, b) ==> r.1 == ContentScript.CategorizeAI(b.page, b.oracle).result.value
    ensures !Answers(c, b) ==> r.1 == DefaultCategory
  {
    var reply := if b.messageFails then None else ContentScript.Handle(CategorizeOneAction, b.page, b.oracle);
    CategorizeOne(c, b.probe, b.tabs, b.injectFails, reply)
  }

  /** What one run of `processBookmark` leaves behind. */
  datatype Processed = Processed(
    tracker: State, store: Store, cache: Cache, decision: Decision,
    category: Option<string>, outcome: Option<Outcome>)

  /**
   * `processBookmark(id)`: read the bookmark and its record; unless it is gone, has no
   * URL or was edited, classify it through the content script and place it.
   */
  function ProcessBookmark(t: State, s: Store, cache: Cache, id: Id, b: Browser): (r: Processed)
    requires Valid(s)
    ensures Valid(r.store) && r.tracker.pending == t.pending && r.tracker.armed == t.armed
    ensures r.decision.Categorize? <==>
      !b.getFails && id in s.entries && HasUrl(s.entries[id].url)
      && (id !in t.pending || !t.pending[id].userInteracted)
    ensures r.category.Some? <==> r.decision.Categorize?
    ensures r.outcome.Some? <==> r.decision.Categorize?
    ensures !r.decision.Categorize? ==> r.tracker == t && r.store == s && r.cache == cache
    ensures r.decision.Categorize? ==> r.cache == SetUp(cache, b.probe, b.tabs, b.injectFails).cache
    ensures r.category.Some? && Answers(cache, b) ==>
      r.category.value == ContentScript.CategorizeAI(b.page, b.oracle).result.value
    ensures r.category.Some? && !Answers(cache, b) ==> r.category.value == DefaultCategory
    ensures r.outcome.Some? && r.outcome.value.Done? ==>
      && id in r.store.entries && r.outcome.value.folder in r.store.entries
      && r.store.entries[id].parent == Some(r.outcome.value.folder)
      && r.store.entries[r.outcome.value.folder].title == r.category.value
      && r.store.entries[r.outcome.value.folder].parent == FindRoot(s)
  {
    var d := Decide(t, id, Fetch(s, id, b.getFails));
    if !d.Categorize? then Processed(t, s, cache, d, None, None)
    else
      var answer := Classify(cache, b);
      var p := Place(s, t.moving, id, Some(answer.1), b.faults);
      assert p.outcome.Done? ==>
        && id in p.store.entries && p.store.entries[id].parent == Some(p.outcome.folder)
        && p.outcome.folder in p.store.entries
        && p.store.entries[p.outcome.folder].title == answer.1
        && p.store.entries[p.outcome.folder].parent == FindRoot(s);
      Processed(t.(moving := p.moving), p.store, answer.0, d, Some(answer.1), Some(p.outcome))
  }

  /**
   * A live timer for `id` fires: the callback runs `processBookmark` and deletes the
   * record, in the order `ord` says. Either way no record of `id` is left.
   */
  function OnTimer(t: State, s: Store, cache: Cache, id: Id, b: Browser, ord: Ordering): (r: Processed)
    requires Valid(s) && id in t.armed
    ensures Valid(r.store)
    ensures id !in r.tracker.pending
    ensures forall k :: k in t.pending && k != id ==> k in r.tracker.pending && r.tracker.pending[k] == t.pending[k]
    ensures Inv(t) ==> Inv(r.tracker)
  {
    var fired := TimerFires(t, id, ord);
    var p := ProcessBookmark(fired, s, cache, id, b);
    p.(tracker := AfterRead(p.tracker, id, ord))
  }

  /**
   * A bookmark the user edited while its timer ran: as written it is classified and
   * moved anyway; reading the record before deleting it leaves it where the user put it.
   */
  lemma EditedBookmark(t: State, s: Store, cache: Cache, id: Id, b: Browser)
    requires Valid(s) && id in t.armed && id in t.pending && t.pending[id].userInteracted
    requires !b.getFails && id in s.entries && HasUrl(s.entries[id].url)
    ensures OnTimer(t, s, cache, id, b, AsWritten).decision.Categorize?
    ensures var r := OnTimer(t, s, cache, id, b, ReadBeforeDelete);
      r.decision == UserEdited && r.store == s && r.cache == cache
  {
  }

  /**
   * A new bookmark the user left alone, whose page model answers on the first prompt:
   * it ends up in a folder titled with the trimmed answer, directly under the root.
   */
  lemma AnsweredBookmarkIsFiled(t: State, s: Store, cache: Cache, id: Id, b: Browser, ord: Ordering)
    requires Valid(s) && id in t.armed && (id !in t.pending || !t.pending[id].userInteracted)
    requires !b.getFails && id in s.entries && HasUrl(s.entries[id].url) && s.entries[id].parent.Some?
    requires FindRoot(s).Some? && b.faults == NoFaults
    requires SetUp(cache, b.probe, b.tabs, b.injectFails).tab.Ok? && !b.messageFails
    requires ContentScript.Ready(b.page) && b.oracle(0).Answered?
    ensures var r := OnTimer(t, s, cache, id, b, ord);
      && r.outcome.Some? && r.outcome.value.Done?
      && r.store.entries[id].parent == Some(r.outcome.value.folder)
      && r.store.entries[r.outcome.value.folder].title == Text.Trim(b.oracle(0).text)
      && r.store.entries[r.outcome.value.folder].parent == FindRoot(s)
  {
    var fired := TimerFires(t, id, ord);
    ContentScript.FirstAnswerWins(b.page, b.oracle, 0);
    var category := Text.Trim(b.oracle(0).text);
    PlacedWhenNothingFails(s, fired.moving, id, Some(category));
  }

  /**
   * When the page model rejects all five prompts, the content script reports failure
   * and the bookmark is filed under "Others".
   */
  lemma RejectedBookmarkGoesToOthers(t: State, s: Store, cache: Cache, id: Id, b: Browser, ord: Ordering)
    requires Valid(s) && id in t.armed && (id !in t.pending || !t.pending[id].userInteracted)
    requires !b.getFails && id in s.entries && HasUrl(s.entries[id].url) && s.entries[id].parent.Some?
    requires FindRoot(s).Some? && b.faults == NoFaults
    requires ContentScript.Ready(b.page)
    requires forall j :: 0 <= j < ContentScript.MaxRetries ==> b.oracle(j).Rejected?
    ensures var r := OnTimer(t, s, cache, id, b, ord);
      && r.outcome.Some? && r.outcome.value.Done?
      && r.store.entries[id].parent == Some(r.outcome.value.folder)
      && r.store.entries[r.outcome.value.folder].title == DefaultCategory
  {
    var fired := TimerFires(t, id, ord);
    ContentScript.ExhaustedIffAllRejected(b.page, b.oracle);
    PlacedWhenNothingFails(s, fired.moving, id, Some(DefaultCategory));
  }

  /**
   * When `tabs.sendMessage` rejects, whatever the page would have answered, the catch
   * in `categorizeBookmark` falls back and the bookmark is filed under "Others".
   */
  lemma LostMessageGoesToOthers(t: State, s: Store, cache: Cache, id: Id, b: Browser, ord: Ordering)
    requires Valid(s) && id in t.armed && (id !in t.pending || !t.pending[id].userInteracted)
    requires !b.getFails && id in s.entries && HasUrl(s.entries[id].url) && s.entries[id].parent.Some?
    requires FindRoot(s).Some? && b.faults == NoFaults && b.messageFails
    ensures var r := OnTimer(t, s, cache, id, b, ord);
      && r.outcome.Some? && r.outcome.value.Done?
      && r.store.entries[id].parent == Some(r.outcome.value.folder)
      && r.store.entries[r.outcome.value.folder].title == DefaultCategory
  {
    var fired := TimerFires(t, id, ord);
    PlacedWhenNothingFails(s, fired.moving, id, Some(DefaultCategory));
  }
}

=== FILE: placement.dfy ===
/**
 * `placeBookmarkInFolder` and `getParentFolderId`: find the root folder, find or create
 * the category folder directly under it, and move the bookmark there, with the
 * bookmark's id in `bookmarksBeingMoved` for the duration of the move.
 *
 * Every browser call that may throw has a fault flag in `Faults`; a thrown call ends
 * in the `catch` block, which removes the id from `bookmarksBeingMoved`.
 */
module Placement {
  import opened Options
  import opened Bookmarks

  const BookmarksBar: string := "Bookmarks Bar"
  const OtherBookmarks: string := "Other Bookmarks"

  /** A top-level node `getParentFolderId` accepts. */
  predicate IsRootNode(s: Store, x: Id) {
    x in s.entries && (s.entries[x].title == BookmarksBar || s.entries[x].title == OtherBookmarks)
  }

  /** Position of the first root candidate in `ids`. */
  function FirstRootIndex(s: Store, ids: seq<Id>): (r: Option<nat>)
    ensures r.Some? ==> r.value < |ids| && IsRootNode(s, ids[r.value])
    ensures r.Some? ==> forall j :: 0 <= j < r.value ==> !IsRootNode(s, ids[j])
    ensures r.None? ==> forall j :: 0 <= j < |ids| ==> !IsRootNode(s, ids[j])
  {
    if |ids| == 0 then None
    else if IsRootNode(s, ids[0]) then Some(0)
    else match FirstRootIndex(s, ids[1..])
      case None => None
      case Some(k) => Some(k + 1)
  }

  /**
   * `getParentFolderId`: the first child of the tree's root, in child order, titled
   * "Bookmarks Bar" or "Other Bookmarks"; `None` (undefined) when there is none.
   */
  function FindRoot(s: Store): (r: Option<Id>)
    ensures r.None? <==> forall x :: x in TopLevel(s) ==> !IsRootNode(s, x)
    ensures r.Some? ==> IsRootNode(s, r.value) && s.entries[r.value].parent.None?
    ensures r.Some? ==> exists k :: (0 <= k < |TopLevel(s)| && TopLevel(s)[k] == r.value
      && forall j :: 0 <= j < k ==> !IsRootNode(s, TopLevel(s)[j]))
  {
    var top := TopLevel(s);
    match FirstRootIndex(s, top)
    case None => None
    case Some(k) => Some(top[k])
  }

  /** Two stores with the same top level, agreeing on which of it are root candidates, have the same root. */
  lemma {:induction false} FirstRootIndexFrame(s: Store, t: Store, ids: seq<Id>)
    requires forall j :: 0 <= j < |ids| ==> IsRootNode(s, ids[j]) == IsRootNode(t, ids[j])
    ensures FirstRootIndex(s, ids) == FirstRootIndex(t, ids)
  {
    if |ids| > 0 {
      FirstRootIndexFrame(s, t, ids[1..]);
    }
  }

  lemma FindRootFrame(s: Store, t: Store)
    requires TopLevel(t) == TopLevel(s)
    requires forall x :: x in TopLevel(s) ==> IsRootNode(s, x) == IsRootNode(t, x)
    ensures FindRoot(t) == FindRoot(s)
  {
    FirstRootIndexFrame(s, t, TopLevel(s));
  }

  /** A folder (no URL) whose title is exactly `name`; an undefined name matches nothing. */
  predicate IsCategoryFolder(s: Store, x: Id, name: Option<string>) {
    x in s.entries && !HasUrl(s.entries[x].url) && Some(s.entries[x].title) == name
  }

  function FirstFolderIndex(s: Store, ids: seq<Id>, name: Option<string>): (r: Option<nat>)
    ensures r.Some? ==> r.value < |ids| && IsCategoryFolder(s, ids[r.value], name)
    ensures r.Some? ==> forall j :: 0 <= j < r.value ==> !IsCategoryFolder(s, ids[j], name)
    ensures r.None? ==> forall j :: 0 <= j < |ids| ==> !IsCategoryFolder(s, ids[j], name)
  {
    if |ids| == 0 then None
    else if IsCategoryFolder(s, ids[0], name) then Some(0)
    else match FirstFolderIndex(s, ids[1..], name)
      case None => None
      case Some(k) => Some(k + 1)
  }

  /** The search loop over `getChildren(root)`: the first child folder titled `name`. */
  function FindFolder(s: Store, root: Id, name: Option<string>): (r: Option<Id>)
    ensures r.None? <==> forall x :: x in Children(s, root) ==> !IsCategoryFolder(s, x, name)
    ensures r.Some? ==> IsCategoryFolder(s, r.value, name) && s.entries[r.value].parent == Some(root)
    ensures r.Some? ==> exists k :: (0 <= k < |Children(s, root)| && Children(s, root)[k] == r.value
      && forall j :: 0 <= j < k ==> !IsCategoryFolder(s, Children(s, root)[j], name))
  {
    var kids := Children(s, root);
    match FirstFolderIndex(s, kids, name)
    case None => None
    case Some(k) => Some(kids[k])
  }

  /** Which browser calls throw in one placement. */
  datatype Faults = Faults(getTree: bool, getChildren: bool, create: bool, move: bool, verify: bool)

  const NoFaults: Faults := Faults(false, false, false, false, false)

  /** The call that threw. */
  datatype Call = GetTree | GetChildren | Create | Move | Verify

  datatype Outcome =
    | NoRoot                            // no root folder: logged, returns early
    | Threw(at: Call)                   // caught by the `catch` block
    | Done(folder: Id, verified: bool)  // moved; `verified` is the parent check

  /** The store and suppression set after a placement, its outcome, and the folder it created, if any. */
  datatype Placed = Placed(store: Store, moving: set<Id>, outcome: Outcome, created: Option<Id>)

  /** The ids a placement added to the store: its created folder, if any. */
  function Added(p: Placed): set<Id> {
    if p.created.Some? then {p.created.value} else {}
  }

  /** From `bookmarksBeingMoved.add` on: move, remove from the set, verify. */
  function MoveInto(s: Store, moving: set<Id>, id: Id, folder: Id, f: Faults, created: Option<Id>): (p: Placed)
    requires Valid(s)
    ensures Valid(p.store) && p.moving == moving - {id} && p.created == created
    ensures p.outcome.Threw? ==> p.outcome.at in {Move, Verify}
    ensures p.outcome.Threw? && p.outcome.at == Move ==> p.store == s
    ensures p.outcome.Done? || (p.outcome.Threw? && p.outcome.at == Verify)
      <==> !f.move && MoveNode(s, id, folder).Some?
    ensures !f.move && MoveNode(s, id, folder).Some? ==> p.store == MoveNode(s, id, folder).value
    ensures p.outcome.Done? ==> p.outcome.folder == folder && p.outcome.verified
    ensures p.outcome.Done? ==> id in p.store.entries && p.store.entries[id].parent == Some(folder)
    ensures p.store.entries.Keys == s.entries.Keys && TopLevel(p.store) == TopLevel(s)
    ensures forall x :: x in s.order ==> x in p.store.order
    ensures forall x :: x in s.entries && (x != id || s.entries[x].parent.None?) ==> p.store.entries[x] == s.entries[x]
    ensures folder in s.entries ==> p.store.entries[folder] == s.entries[folder]
  {
    var moving1 := moving + {id};
    var moved := if f.move then None else MoveNode(s, id, folder);
    match moved
    case None => Placed(s, moving1 - {id}, Threw(Move), created)
    case Some(s2) =>
      var moving2 := moving1 - {id};
      if f.verify then Placed(s2, moving2 - {id}, Threw(Verify), created)
      else Placed(s2, moving2, Done(folder, s2.entries[id].parent == Some(folder)), created)
  }

  /** `t` differs from `s` at most in new nodes and in the entry of `id`, which is not a top-level node. */
  ghost predicate Frames(s: Store, t: Store, id: Id) {
    && Valid(t)
    && TopLevel(t) == TopLevel(s)
    && forall x :: x in s.entries && (x != id || s.entries[x].parent.None?) ==>
         x in t.entries && t.entries[x] == s.entries[x]
  }

  /** The root's children were read and hold no folder titled `name`: create one, then move. */
  function CreateAndMove(s: Store, moving: set<Id>, id: Id, root: Id, name: Option<string>, f: Faults): (p: Placed)
    requires Valid(s)
    ensures Frames(s, p.store, id) && p.moving == moving - {id}
    ensures f.create ==> p.store == s && p.created.None? && p.outcome == Threw(Create)
    ensures !f.create ==> p.created.Some?
    ensures p.store.entries.Keys == s.entries.Keys + Added(p)
    ensures p.created.Some? ==>
      && p.created.value !in s.entries
      && p.created.value in Children(p.store, root)
      && p.store.entries[p.created.value] == Entry(name.GetOr(""), None, Some(root))
    ensures p.outcome.Done? ==>
      && p.created == Some(p.outcome.folder)
      && id in p.store.entries && p.store.entries[id].parent == Some(p.outcome.folder)
  {
    if f.create then Placed(s, moving - {id}, Threw(Create), None)
    else
      var (s1, folder) := CreateFolder(s, root, name.GetOr(""));
      var p := MoveInto(s1, moving, id, folder, f, Some(folder));
      assert folder in Children(s1, root);
      assert folder in p.store.order;
      p
  }

  /** The root is known: read its children, find or create the folder, move. */
  function PlaceUnder(s: Store, moving: set<Id>, id: Id, root: Id, name: Option<string>, f: Faults): (p: Placed)
    requires Valid(s)
    ensures Frames(s, p.store, id) && p.moving == moving - {id} && !p.outcome.NoRoot?
    ensures p.store.entries.Keys == s.entries.Keys + Added(p)
    ensures p.created.Some? ==> FindFolder(s, root, name).None?
    ensures p.created.Some? ==>
      && p.created.value !in s.entries
      && p.created.value in Children(p.store, root)
      && p.store.entries[p.created.value] == Entry(name.GetOr(""), None, Some(root))
    ensures p.outcome.Done? ==>
      && id in p.store.entries && p.store.entries[id].parent == Some(p.outcome.folder)
      && p.outcome.folder in p.store.entries
      && p.store.entries[p.outcome.folder].parent == Some(root)
      && !HasUrl(p.store.entries[p.outcome.folder].url)
      && p.store.entries[p.outcome.folder].title == name.GetOr("")
  {
    if f.getChildren then Placed(s, moving - {id}, Threw(GetChildren), None)
    else match FindFolder(s, root, name)
      case Some(folder) => MoveInto(s, moving, id, folder, f, None)
      case None => CreateAndMove(s, moving, id, root, name, f)
  }

  /**
   * `placeBookmarkInFolder(id, name)`; `name` is `None` when the caller passed
   * `undefined`, in which case a created folder gets the empty title.
   */
  function Place(s: Store, moving: set<Id>, id: Id, name: Option<string>, f: Faults): (p: Placed)
    requires Valid(s)
    ensures Frames(s, p.store, id)
    ensures p.moving == if p.outcome.NoRoot? then moving else moving - {id}
    ensures p.outcome.NoRoot? <==> !f.getTree && FindRoot(s).None?
    ensures p.outcome.NoRoot? ==> p.store == s && p.created.None?
    ensures p.store.entries.Keys == s.entries.Keys + Added(p)
    ensures p.created.Some? ==>
      && FindRoot(s).Some?
      && FindFolder(s, FindRoot(s).value, name).None?
      && p.created.value !in s.entries
      && p.created.value in Children(p.store, FindRoot(s).value)
      && p.store.entries[p.created.value] == Entry(name.GetOr(""), None, FindRoot(s))
    ensures p.outcome.Done? ==>
      && FindRoot(s).Some?
      && id in p.store.entries && p.store.entries[id].parent == Some(p.outcome.folder)
      && p.outcome.folder in p.store.entries
      && p.store.entries[p.outcome.folder].parent == FindRoot(s)
      && !HasUrl(p.store.entries[p.outcome.folder].url)
      && p.store.entries[p.outcome.folder].title == name.GetOr("")
  {
    if f.getTree then Placed(s, moving - {id}, Threw(GetTree), None)
    else match FindRoot(s)
      case None => Placed(s, moving, NoRoot, None)
      case Some(root) => PlaceUnder(s, moving, id, root, name, f)
  }

  /**
   * Find-or-create: once the root and its children are read, the first child folder
   * titled `name` is reused, and a folder is created under the root only when there is
   * no such child.
   */
  lemma FindOrCreate(s: Store, moving: set<Id>, id: Id, name: Option<string>, f: Faults)
    requires Valid(s) && !f.getTree && !f.getChildren && FindRoot(s).Some?
    ensures var p := Place(s, moving, id, name, f);
      var root := FindRoot(s).value;
      && (FindFolder(s, root, name).Some? ==>
            p.created.None? && (p.outcome.Done? ==> p.outcome.folder == FindFolder(s, root, name).value))
      && (FindFolder(s, root, name).None? && !f.create ==>
            p.created.Some? && p.created.value !in s.entries
            && p.store.entries[p.created.value] == Entry(name.GetOr(""), None, Some(root)))
      && (FindFolder(s, root, name).None? && f.create ==> p.created.None? && p.outcome == Threw(Create))
  {
  }

  /**
   * Two placements in a row with the same category create at most one folder: the
   * first one's folder, found or created, is still a child of the still-same root
   * when the second one searches.
   */
  lemma SameCategoryTwiceCreatesAtMostOne(s: Store, moving: set<Id>, id1: Id, id2: Id, name: string, f1: Faults, f2: Faults)
    requires Valid(s)
    ensures var p1 := Place(s, moving, id1, Some(name), f1);
      var p2 := Place(p1.store, p1.moving, id2, Some(name), f2);
      && (p1.created.None? || p2.created.None?)
      && |p2.store.entries.Keys - s.entries.Keys| <= 1
  {
    var p1 := Place(s, moving, id1, Some(name), f1);
    var p2 := Place(p1.store, p1.moving, id2, Some(name), f2);
    if p1.created.Some? {
      var t := p1.store;
      var root := FindRoot(s).value;
      var c := p1.created.value;
      forall x | x in TopLevel(s)
        ensures IsRootNode(s, x) == IsRootNode(t, x)
      {
        assert x in s.entries && s.entries[x].parent.None?;
      }
      FindRootFrame(s, t);
      assert IsCategoryFolder(t, c, Some(name)) && c in Children(t, root);
      assert FindFolder(t, root, Some(name)).Some?;
    }
    assert p2.store.entries.Keys - s.entries.Keys <= Added(p1) + Added(p2);
    assert Added(p1) == {} || Added(p2) == {};
  }

  /**
   * An undefined category matches no folder, so each placement under it creates another
   * untitled folder under the root.
   */
  lemma UndefinedCategoryAlwaysCreates(s: Store, moving: set<Id>, id: Id, f: Faults)
    requires Valid(s) && !f.getTree && !f.getChildren && !f.create && FindRoot(s).Some?
    ensures var p := Place(s, moving, id, None, f);
      && p.created.Some?
      && p.store.entries[p.created.value] == Entry("", None, FindRoot(s))
  {
    FindOrCreate(s, moving, id, None, f);
  }

  /**
   * When no call fails, a bookmark that is not a top-level node ends up in a folder
   * titled after its category, directly under the root.
   */
  lemma PlacedWhenNothingFails(s: Store, moving: set<Id>, id: Id, name: Option<string>)
    requires Valid(s) && FindRoot(s).Some?
    requires id in s.entries && s.entries[id].parent.Some? && HasUrl(s.entries[id].url)
    ensures var p := Place(s, moving, id, name, NoFaults);
      && p.outcome.Done?
      && p.store.entries[id].parent == Some(p.outcome.folder)
      && p.store.entries[p.outcome.folder].parent == FindRoot(s)
      && p.store.entries[p.outcome.folder].title == name.GetOr("")
  {
    var root := FindRoot(s).value;
    match FindFolder(s, root, name) {
      case Some(folder) =>
        assert MoveNode(s, id, folder).Some?;
      case None =>
        var (s1, folder) := CreateFolder(s, root, name.GetOr(""));
        assert MoveNode(s1, id, folder).Some?;
    }
  }
}

=== FILE: text.dfy ===
/**
 * The string operations the extension relies on, restricted to what the model needs:
 * ASCII lower-casing (`toLowerCase`), substring search (`includes`), prefix test
 * (`startsWith`) and whitespace trimming (`trim`).
 */
module Text {

  /** Lower-cases one character; only the ASCII letters `A`..`Z` are affected. */
  function LowerChar(c: char): char {
    if 'A' <= c <= 'Z' then (c as int + 32) as char else c
  }

  /** True when `c` is not an ASCII upper-case letter. */
  predicate IsLowerChar(c: char) {
    !('A' <= c <= 'Z')
  }

  /** True when no character of `s` is an ASCII upper-case letter. */
  predicate IsLower(s: string) {
    forall i :: 0 <= i < |s| ==> IsLowerChar(s[i])
  }

  /** `s.toLowerCase()` on ASCII text. */
  function Lower(s: string): (r: string)
    ensures |r| == |s|
    ensures IsLower(r)
    ensures forall i :: 0 <= i < |s| && IsLowerChar(s[i]) ==> r[i] == s[i]
  {
    seq(|s|, i requires 0 <= i < |s| => LowerChar(s[i]))
  }

  /** Two strings that differ at most in the case of ASCII letters. */
  predicate SameUpToCase(a: string, b: string) {
    |a| == |b| && forall i :: 0 <= i < |a| ==> LowerChar(a[i]) == LowerChar(b[i])
  }

  lemma LowerIgnoresCase(a: string, b: string)
    requires SameUpToCase(a, b)
    ensures Lower(a) == Lower(b)
  {
  }

  /** `s.startsWith(prefix)`. */
  predicate StartsWith(s: string, prefix: string) {
    |prefix| <= |s| && s[..|prefix|] == prefix
  }

  /** `word` occurs in `text` starting at position `i`. */
  predicate OccursAt(text: string, word: string, i: int) {
    0 <= i && i + |word| <= |text| && text[i..i + |word|] == word
  }

  /** `text.includes(word)`, computed by trying every start position from the left. */
  function Contains(text: string, word: string): (r: bool)
    ensures r <==> exists i :: OccursAt(text, word, i)
  {
    if StartsWith(text, word) then
      assert OccursAt(text, word, 0);
      true
    else if |text| == 0 then
      false
    else
      var rest := Contains(text[1..], word);
      if rest then
        var i :| OccursAt(text[1..], word, i);
        assert OccursAt(text, word, i + 1) by {
          assert text[i + 1..i + 1 + |word|] == text[1..][i..i + |word|];
        }
        true
      else
        forall i | OccursAt(text, word, i)
          ensures false
        {
          if i > 0 {
            OccursShift(text, word, i);
          }
        }
        false
  }

  lemma OccursShift(text: string, word: string, i: int)
    requires i > 0 && OccursAt(text, word, i)
    ensures OccursAt(text[1..], word, i - 1)
  {
    forall k | 0 <= k < |word|
      ensures text[1..][i - 1..i - 1 + |word|][k] == word[k]
    {
      assert text[i..i + |word|][k] == word[k];
    }
  }

  /**
   * The characters `String.prototype.trim` removes: the ECMAScript WhiteSpace and
   * LineTerminator code points.
   */
  predicate IsSpace(c: char) {
    || c == ' ' || c == '\t' || c == '\n' || c == '\r' || c == '\U{B}' || c == '\U{C}'
    || c == '\U{A0}' || c == '\U{1680}' || ('\U{2000}' <= c <= '\U{200A}')
    || c == '\U{2028}' || c == '\U{2029}' || c == '\U{202F}' || c == '\U{205F}'
    || c == '\U{3000}' || c == '\U{FEFF}'
  }

  predicate AllSpace(s: string) {
    forall i :: 0 <= i < |s| ==> IsSpace(s[i])
  }

  /** Number of leading whitespace characters of `s`. */
  function LeadingSpace(s: string): (n: nat)
    ensures n <= |s|
    ensures AllSpace(s[..n])
    ensures n < |s| ==> !IsSpace(s[n])
  {
    if |s| == 0 || !IsSpace(s[0]) then 0
    else
      var k := LeadingSpace(s[1..]);
      assert s[..k + 1] == [s[0]] + s[1..][..k];
      k + 1
  }

  /** Length of `s` once its trailing whitespace is dropped. */
  function TrailingStart(s: string): (n: nat)
    ensures n <= |s|
    ensures AllSpace(s[n..])
    ensures n > 0 ==> !IsSpace(s[n - 1])
  {
    if |s| == 0 || !IsSpace(s[|s| - 1]) then |s|
    else
      var k := TrailingStart(s[..|s| - 1]);
      assert s[k..] == s[..|s| - 1][k..] + [s[|s| - 1]];
      k
  }

  /** `s.trim()`. */
  function Trim(s: string): string {
    var a := LeadingSpace(s);
    s[a..][..TrailingStart(s[a..])]
  }

  /**
   * Trimming removes whitespace and only whitespace, from both ends: `s` is the
   * trimmed text with a whitespace prefix and a whitespace suffix around it, and the
   * trimmed text neither starts nor ends with whitespace.
   */
  lemma TrimShape(s: string)
    ensures exists pre, post :: AllSpace(pre) && AllSpace(post) && s == pre + Trim(s) + post
    ensures |Trim(s)| > 0 ==> !IsSpace(Trim(s)[0]) && !IsSpace(Trim(s)[|Trim(s)| - 1])
  {
    var a := LeadingSpace(s);
    var t := s[a..];
    var b := TrailingStart(t);
    assert s == s[..a] + t[..b] + t[b..];
    if |Trim(s)| > 0 {
      assert Trim(s)[0] == s[a];
    }
  }

  lemma TrimIdempotent(s: string)
    ensures Trim(Trim(s)) == Trim(s)
  {
    TrimShape(s);
    var t := Trim(s);
    if |t| > 0 {
      assert LeadingSpace(t) == 0;
      assert t[0..] == t;
      assert TrailingStart(t) == |t|;
    }
  }
}

=== FILE: tracker.dfy ===
/**
 * The debounce and self-move suppression state of the background script: the map
 * `pendingBookmarks` from bookmark id to a record `{timerId, userInteracted}`, and the
 * set `bookmarksBeingMoved`.
 *
 * Timer handles are abstracted: `armed` is the multiset of ids whose timer callback is
 * still scheduled (`setTimeout` adds one, `clearTimeout` removes one, firing consumes
 * one). The timer callback runs `processBookmark(id)` without awaiting it and then
 * deletes the record; `processBookmark` reads the record only after its first `await`.
 * The callback is therefore two steps here: `TimerFires` (the synchronous part) and
 * `Decide`, the read made when `bookmarks.get` resolves. `Ordering` selects between
 * that order and the evidently intended one, where the record is read before it is
 * deleted.
 */
module Tracker {
  import opened Options
  import opened Bookmarks

  /** A pending-categorisation record, without its timer handle. */
  datatype Pending = Pending(userInteracted: bool)

  datatype State = State(pending: map<Id, Pending>, armed: multiset<Id>, moving: set<Id>)

  const Initial: State := State(map[], multiset{}, {})

  /** At most one live timer per bookmark, and only for a bookmark with a record. */
  ghost predicate Inv(s: State) {
    forall id :: id in s.armed ==> s.armed[id] == 1 && id in s.pending
  }

  /** When the record is deleted relative to the read of `userInteracted`. */
  datatype Ordering =
    | AsWritten         // delete at timer firing, read after `bookmarks.get` resolves
    | ReadBeforeDelete  // read, then delete

  /**
   * `onCreated` with `scheduleBookmarkProcessing`: nothing for a folder (no URL);
   * otherwise the old timer is cleared and one fresh record replaces any old one.
   */
  function OnCreated(s: State, id: Id, url: Option<string>): (r: State)
    ensures !HasUrl(url) ==> r == s
    ensures HasUrl(url) ==> r.pending.Keys == s.pending.Keys + {id} && r.pending[id] == Pending(false)
    ensures forall k :: k in s.pending && k != id ==> r.pending[k] == s.pending[k]
    ensures forall k :: k != id ==> r.armed[k] == s.armed[k]
    ensures r.moving == s.moving
    ensures Inv(s) ==> Inv(r) && (HasUrl(url) ==> r.armed[id] == 1)
  {
    if !HasUrl(url) then s
    else
      var cleared := if id in s.pending then s.armed - multiset{id} else s.armed;
      State(s.pending[id := Pending(false)], cleared + multiset{id}, s.moving)
  }

  /** `markUserInteraction`: flags an existing record and never creates one. */
  function MarkUserInteraction(s: State, id: Id): (r: State)
    ensures r.pending.Keys == s.pending.Keys
    ensures id in s.pending ==> r.pending[id].userInteracted
    ensures forall k :: k in s.pending && k != id ==> r.pending[k] == s.pending[k]
    ensures r.armed == s.armed && r.moving == s.moving
    ensures Inv(s) ==> Inv(r)
  {
    if id in s.pending then s.(pending := s.pending[id := Pending(true)]) else s
  }

  /** `onChanged`: marks interaction without consulting `bookmarksBeingMoved`. */
  function OnChanged(s: State, id: Id): (r: State)
    ensures r.pending.Keys == s.pending.Keys
    ensures id in s.pending ==> r.pending[id].userInteracted
    ensures forall k :: k in s.pending && k != id ==> r.pending[k] == s.pending[k]
    ensures r.armed == s.armed && r.moving == s.moving
  {
    MarkUserInteraction(s, id)
  }

  /** `onMoved`: a move of a bookmark the extension is moving itself changes nothing. */
  function OnMoved(s: State, id: Id): (r: State)
    ensures r.pending.Keys == s.pending.Keys && r.armed == s.armed && r.moving == s.moving
    ensures id in s.moving ==> r.pending == s.pending
    ensures id !in s.moving && id in s.pending ==> r.pending[id].userInteracted
    ensures forall k :: k in s.pending && k != id ==> r.pending[k] == s.pending[k]
  {
    if id in s.moving then s else MarkUserInteraction(s, id)
  }

  /**
   * The synchronous part of the timer callback: `processBookmark(id)` runs up to its
   * first `await` (reading nothing) and, as written, the record is then deleted.
   */
  function TimerFires(s: State, id: Id, ord: Ordering): (r: State)
    requires id in s.armed
    ensures r.armed[id] == s.armed[id] - 1
    ensures forall k :: k != id ==> r.armed[k] == s.armed[k]
    ensures ord.AsWritten? ==> id !in r.pending
    ensures ord.ReadBeforeDelete? ==> r.pending == s.pending
    ensures forall k :: k in s.pending && k != id ==> k in r.pending && r.pending[k] == s.pending[k]
    ensures r.pending.Keys <= s.pending.Keys && r.moving == s.moving
    ensures Inv(s) ==> Inv(r)
  {
    var armed := s.armed - multiset{id};
    match ord
    case AsWritten => State(s.pending - {id}, armed, s.moving)
    case ReadBeforeDelete => s.(armed := armed)
  }

  /** What `bookmarks.get(id)` produced when `processBookmark` resumed. */
  datatype Fetched = FetchFailed | Fetched(title: string, url: Option<string>)

  datatype Decision =
    | Abandoned                               // `get` threw; caught and logged
    | NotABookmark                            // no URL
    | UserEdited                              // record says the user touched it
    | Categorize(title: string, url: string)  // go on to classify and place

  /**
   * The part of `processBookmark` after `bookmarks.get` resolves: a missing record
   * reads as `userInteracted == false`.
   */
  function Decide(s: State, id: Id, f: Fetched): (d: Decision)
    ensures d.UserEdited? <==> f.Fetched? && HasUrl(f.url) && id in s.pending && s.pending[id].userInteracted
    ensures d.Categorize? <==> f.Fetched? && HasUrl(f.url) && (id !in s.pending || !s.pending[id].userInteracted)
    ensures d.Categorize? ==> d.title == f.title && Some(d.url) == f.url
  {
    match f
    case FetchFailed => Abandoned
    case Fetched(title, url) =>
      if !HasUrl(url) then NotABookmark
      else if id in s.pending && s.pending[id].userInteracted then UserEdited
      else Categorize(title, url.value)
  }

  /** The tracker state once `processBookmark` has read the record. */
  function AfterRead(s: State, id: Id, ord: Ordering): (r: State)
    ensures ord.ReadBeforeDelete? ==> id !in r.pending
    ensures forall k :: k in s.pending && k != id ==> k in r.pending && r.pending[k] == s.pending[k]
    ensures r.pending.Keys <= s.pending.Keys && r.armed == s.armed && r.moving == s.moving
  {
    match ord
    case AsWritten => s
    case ReadBeforeDelete => s.(pending := s.pending - {id})
  }

  /** Everything that can touch the tracker while a categorisation is under way. */
  datatype Event =
    | Created(id: Id, url: Option<string>)
    | Changed(id: Id)
    | Moved(id: Id)
    | Fired(id: Id)     // a live timer callback runs
    | Resumed(id: Id)   // a suspended `processBookmark` reads its record
    | MoveBegins(id: Id)  // `placeBookmarkInFolder` adds the id to `bookmarksBeingMoved`
    | MoveEnds(id: Id)    // ... and removes it

  function Step(s: State, e: Event, ord: Ordering): State {
    match e
    case Created(id, url) => OnCreated(s, id, url)
    case Changed(id) => OnChanged(s, id)
    case Moved(id) => OnMoved(s, id)
    case Fired(id) => if id in s.armed then TimerFires(s, id, ord) else s
    case Resumed(id) => AfterRead(s, id, ord)
    case MoveBegins(id) => s.(moving := s.moving + {id})
    case MoveEnds(id) => s.(moving := s.moving - {id})
  }

  function Run(s: State, es: seq<Event>, ord: Ordering): State
    decreases |es|
  {
    if |es| == 0 then s else Run(Step(s, es[0], ord), es[1..], ord)
  }

  /** True when no event of `es` is a creation of `id` with a URL (creations without one are ignored). */
  predicate NoCreation(es: seq<Event>, id: Id) {
    forall i :: 0 <= i < |es| ==> !(es[i].Created? && es[i].id == id && HasUrl(es[i].url))
  }

  /** As written, every event keeps the timer invariant. */
  lemma {:induction false} RunKeepsInv(s: State, es: seq<Event>)
    requires Inv(s)
    ensures Inv(Run(s, es, AsWritten))
    decreases |es|
  {
    if |es| > 0 {
      var t := Step(s, es[0], AsWritten);
      match es[0] {
        case Created(id, url) =>
        case Changed(id) =>
        case Moved(id) =>
        case Fired(id) =>
        case Resumed(id) =>
        case MoveBegins(id) =>
          assert t.armed == s.armed && t.pending == s.pending;
        case MoveEnds(id) =>
          assert t.armed == s.armed && t.pending == s.pending;
      }
      RunKeepsInv(t, es[1..]);
    }
  }

  /** Only a creation makes a record appear. */
  lemma {:induction false} NoRecordWithoutCreation(s: State, es: seq<Event>, ord: Ordering, id: Id)
    requires id !in s.pending && NoCreation(es, id)
    ensures id !in Run(s, es, ord).pending
    decreases |es|
  {
    if |es| > 0 {
      NoRecordWithoutCreation(Step(s, es[0], ord), es[1..], ord, id);
    }
  }

  /**
   * As written, the read made when `processBookmark` resumes comes after the timer
   * callback's delete, so it finds no record whatever happened in between (short of
   * the same id being created again): a user edit never stops the categorisation.
   */
  lemma InteractionNeverSeenAsWritten(s: State, id: Id, es: seq<Event>, f: Fetched)
    requires id in s.armed && NoCreation(es, id)
    ensures Decide(Run(TimerFires(s, id, AsWritten), es, AsWritten), id, f) != UserEdited
  {
    NoRecordWithoutCreation(TimerFires(s, id, AsWritten), es, AsWritten, id);
  }

  /** True when no event of `es` creates `id` or reads its record. */
  predicate Untouched(es: seq<Event>, id: Id) {
    forall i :: 0 <= i < |es| ==> !((es[i].Created? || es[i].Resumed?) && es[i].id == id)
  }

  /** With the read before the delete, a flag once set stays set until the record is read. */
  lemma {:induction false} FlagSticksReadBeforeDelete(s: State, es: seq<Event>, id: Id)
    requires id in s.pending && s.pending[id].userInteracted && Untouched(es, id)
    ensures var r := Run(s, es, ReadBeforeDelete); id in r.pending && r.pending[id].userInteracted
    decreases |es|
  {
    if |es| > 0 {
      var t := Step(s, es[0], ReadBeforeDelete);
      assert id in t.pending && t.pending[id].userInteracted;
      FlagSticksReadBeforeDelete(t, es[1..], id);
    }
  }

  /**
   * With the read before the delete, a change of the bookmark at any point between its
   * creation and the read cancels its categorisation.
   */
  lemma EditCancelsReadBeforeDelete(s: State, id: Id, before: seq<Event>, after: seq<Event>, f: Fetched)
    requires id in s.pending && Untouched(before, id) && Untouched(after, id)
    requires f.Fetched? && HasUrl(f.url)
    ensures Decide(Run(s, before + [Changed(id)] + after, ReadBeforeDelete), id, f) == UserEdited
  {
    var es := before + [Changed(id)] + after;
    assert Untouched(before + [Changed(id)], id);
    RunSplit(s, before + [Changed(id)], after, ReadBeforeDelete);
    RunSplit(s, before, [Changed(id)], ReadBeforeDelete);
    NoLossOfRecord(s, before, id);
    FlagSticksReadBeforeDelete(Run(s, before + [Changed(id)], ReadBeforeDelete), after, id);
  }

  lemma {:induction false} RunSplit(s: State, a: seq<Event>, b: seq<Event>, ord: Ordering)
    ensures Run(s, a + b, ord) == Run(Run(s, a, ord), b, ord)
    decreases |a|
  {
    if |a| > 0 {
      assert (a + b)[1..] == a[1..] + b;
      RunSplit(Step(s, a[0], ord), a[1..], b, ord);
    } else {
      assert a + b == b;
    }
  }

  /** With the read before the delete, a record is only lost by reading it. */
  lemma {:induction false} NoLossOfRecord(s: State, es: seq<Event>, id: Id)
    requires id in s.pending && Untouched(es, id)
    ensures id in Run(s, es, ReadBeforeDelete).pending
    decreases |es|
  {
    if |es| > 0 {
      NoLossOfRecord(Step(s, es[0], ReadBeforeDelete), es[1..], id);
    }
  }

  /**
   * While the extension moves a bookmark, its own move event is ignored, but an outside
   * move of another pending bookmark in the same window still counts as an edit.
   */
  lemma MoveWindow(s: State, id: Id, other: Id)
    requires other != id && other !in s.moving && other in s.pending
    ensures var w := Step(s, MoveBegins(id), AsWritten);
      && OnMoved(w, id).pending == s.pending
      && OnMoved(w, other).pending[other].userInteracted
  {
  }

  /** `onChanged` marks a bookmark even while the extension is moving it. */
  lemma ChangeNotSuppressed(s: State, id: Id)
    requires id in s.moving && id in s.pending
    ensures OnChanged(s, id).pending[id].userInteracted
  {
  }

  /** The user renames a freshly created bookmark before its delay ends. */
  function RenameDuringDelay(id: Id, url: string): seq<Event> {
    [Created(id, Some(url)), Changed(id), Fired(id)]
  }

  /** As written, the rename is ignored: the bookmark is still categorised. */
  lemma RenameDuringDelayIsIgnored(id: Id, title: string, url: string)
    requires url != ""
    ensures Decide(Run(Initial, RenameDuringDelay(id, url), AsWritten), id, Fetched(title, Some(url)))
      == Categorize(title, url)
  {
    var s1 := Step(Initial, Created(id, Some(url)), AsWritten);
    var s2 := Step(s1, Changed(id), AsWritten);
    assert s2.pending[id].userInteracted && id in s2.armed;
    var s3 := Step(s2, Fired(id), AsWritten);
    assert id !in s3.pending;
    assert Run(s2, [Fired(id)], AsWritten) == Run(s3, [], AsWritten) == s3;
    assert Run(s1, [Changed(id), Fired(id)], AsWritten) == Run(s2, [Fired(id)], AsWritten);
    assert Run(Initial, RenameDuringDelay(id, url), AsWritten) == Run(s1, [Changed(id), Fired(id)], AsWritten);
  }

  /** Reading before deleting, the rename cancels the categorisation. */
  lemma RenameDuringDelaySkips(id: Id, title: string, url: string)
    requires url != ""
    ensures Decide(Run(Initial, RenameDuringDelay(id, url), ReadBeforeDelete), id, Fetched(title, Some(url)))
      == UserEdited
  {
    var s1 := Step(Initial, Created(id, Some(url)), ReadBeforeDelete);
    var s2 := Step(s1, Changed(id), ReadBeforeDelete);
    assert s2.pending[id].userInteracted && id in s2.armed;
    var s3 := Step(s2, Fired(id), ReadBeforeDelete);
    assert Run(s2, [Fired(id)], ReadBeforeDelete) == Run(s3, [], ReadBeforeDelete) == s3;
    assert Run(s1, [Changed(id), Fired(id)], ReadBeforeDelete) == Run(s2, [Fired(id)], ReadBeforeDelete);
    assert Run(Initial, RenameDuringDelay(id, url), ReadBeforeDelete) == Run(s1, [Changed(id), Fired(id)], ReadBeforeDelete);
  }
}
